=== FILE: README.md ===
# Glyph atlas text renderer — a verified model

This project is a Dafny model of the part of the `glyph-atlas` text renderer that turns characters into the per-glyph records drawn on screen. It has four pieces:

- **Rasterizer font selection** (`crossfont`), module `Crossfont`, file `crossfont.dfy`:
  - fonts are loaded once per descriptor and scaled size, and each gets a fresh `FontKey`;
  - a glyph is taken from the first font in the chain of primary font and fallbacks that maps the character to a non-zero glyph index;
  - a character no font has is rasterized from the primary font's missing glyph (index 0) and reported as `MissingGlyph`;
  - bounds that enclose no pixel give the blank glyph;
  - font sizes add with saturation.
- **Glyph cache** (`src/renderer/text/glyph_cache.rs`), module `GlyphCaching`, file `glyph_cache.dfy`:
  - a memo table from `GlyphKey` to the loaded `Glyph`;
  - a miss rasterizes, applies the metric corrections (descent, zero-width shift) and hands the bitmap to a loader;
  - every missing glyph of one font and size shares one placeholder entry under `'\0'`;
  - any other rasterizer failure loads the blank default glyph, so a lookup never fails;
  - the module also models reset, ASCII preloading and the selection of the four style fonts.
- **Texture atlas** (`src/renderer/atlas.rs`), module `AtlasPacking`, file `atlas.dfy`:
  - `insert_inner` places a bitmap at the cursor of the current row;
  - a checked `Insert` follows the packing policy described in the atlas's documentation:
    - the row closes when the glyph does not fit in it;
    - the next row starts on top of the tallest glyph;
    - a glyph needs strictly less height than the room left.
- **Instance batch** (`src/renderer/text.rs`), module `TextBatch`, file `batch.dfy`:
  - an append-only sequence of `InstanceData` records;
  - it adopts the texture of the first glyph added;
  - the module also models the `#[repr(C)]` layout that gives each record 36 bytes.

Module `Ints` (`ints.dfy`) writes out the Rust casts the code relies on: `as i16`, `as u16`, `as u32` and `i16::saturating_add`.

Everything the code asks of the platform is passed in as a parameter:
- Core Text's glyph lookup, bounds, colour test, rendering and font opening are fields of a `Platform` record of functions.
- The `LoadGlyph` implementation is a `Loader<L>` of two functions over the loader's state `L`.
- The Unicode display width test is a `zeroWidth` predicate.

The cache counts its calls to the rasterizer and the loader in two fields, `rasterCalls` and `loadCalls`. These counters let contracts say that a cache hit makes no calls.

Behaviour of the code that is easy to misread, and that the model follows as written:
- **The atlas room check is strict.** A glyph needs height `< height - row_baseline` (atlas.rs:32-33). So in a 4×4 atlas, a 2×2 glyph cannot go into a second row starting at baseline 2.
- **Every missing character is rasterized.** Each distinct missing character still calls the rasterizer once, because the cache is checked under the character's own key before rasterizing. Only the load into graphics memory is shared (glyph_cache.rs:179-202).
- **A record is 36 bytes.** Under `#[repr(C)]`, `InstanceData` occupies 36 bytes with no padding (text.rs:43-79).
- **The regular-font retry never helps.** `load_regular_font` retries with the very descriptor `compute_font_keys` passes in (glyph_cache.rs:104-109, 151-155). For that caller the retry can never succeed where the first attempt failed (`GlyphCaching.RegularRetryRedundant`).

## Model

| member | source | states |
|---|---|---|
| Ints.WrapInt16 | src/renderer/atlas.rs:138-141 | `x as i16` agrees with `x` modulo 2^16 and is `x` itself whenever `x` fits in 16 bits |
| Ints.WrapUInt16 | src/renderer/text.rs:97-98 | `x as u16` agrees with `x` modulo 2^16 and is `x` itself below 2^16 |
| Ints.WrapUInt32 | crossfont/src/lib.rs:192-196 | `x as u32` agrees with `x` modulo 2^32 and is `x` itself below 2^32 |
| Ints.SaturatingAdd | crossfont/src/lib.rs:228-234 | the result is the 16-bit value nearest the exact sum (no 16-bit value is closer), and the exact sum when it fits |
| Crossfont.AddSize | crossfont/src/lib.rs:228-234 | adding sizes saturates: the half-point count is the representable value nearest the true sum, never a wrapped one |
| Crossfont.NextFontKey | crossfont/src/lib.rs:188-196 | the counter advances by one; the issued token is the counter's old value modulo 2^32 (the `as u32` truncation), and equal to it below 2^32 |
| Crossfont.LoadFont | crossfont/src/lib.rs:53-64 | a known (descriptor, scaled size) returns its memoised key and changes nothing; an error happens exactly when the request is new and the platform cannot open the font, and then leaves the rasterizer unchanged with `FontNotFound(desc)`; a new request that succeeds takes the next token as key, maps that key to the font the platform opened and memoises it under the (descriptor, scaled size) id, advancing the counter by one; existing memo entries are kept and only that id is added; the key was not in use before |
| Crossfont.LoadFontMemoised | crossfont/src/lib.rs:53-64 | loading the same descriptor and size again returns the same key and leaves the rasterizer as it was |
| Crossfont.FreshKeysDistinct | crossfont/src/lib.rs:188-196 | two fonts freshly loaded one after the other get different keys |
| Crossfont.FirstWithGlyph | crossfont/src/lib.rs:72-78 | the position found is the first font of the chain whose glyph index for the character is non-zero; it is past the end exactly when no font of the chain has the character |
| Crossfont.FontGetGlyph | crossfont/src/lib.rs:396-480 | bounds without pixels give a blank `' '` glyph with zero geometry and an empty RGB buffer; otherwise the glyph keeps the character, takes width, height (descent + ascent), top (ascent) and left from the bounds, has zero advance, and its buffer is the rendered pixels, RGBA exactly for colour fonts |
| Crossfont.ZeroBoundsIsDefault | crossfont/src/lib.rs:408-418 | the zero-bounds glyph is exactly `RasterizedGlyph::default()` |
| Crossfont.GetGlyph | crossfont/src/lib.rs:67-87 | `UnknownFontKey` exactly when the font key is not loaded; for a loaded font the result is `Ok` exactly when some font of the chain has the character, and otherwise `MissingGlyph` carrying the primary font's glyph 0 |
| Crossfont.GetGlyphUsesFirstMatch | crossfont/src/lib.rs:72-85 | when font `j` of the chain is the first with the character, the glyph is font `j`'s rasterization at the index it reports |
| Crossfont.PrimaryFontWins | crossfont/src/lib.rs:72-77 | a character the primary font has is never taken from a fallback |
| AtlasPacking.NewAtlas | src/renderer/atlas.rs:54-83 | a new atlas is `size` by `size` with all three cursors at zero, and (for a positive size) satisfies the packing invariant with nothing placed |
| AtlasPacking.InsertInner | src/renderer/atlas.rs:85-147 | the extent grows by the glyph's width and the baseline stays; the tallest is the larger of the old tallest and the glyph's height; the glyph gets the atlas's texture, the UV rectangle of the slot at the old cursor, and its geometry cast to `i16` |
| AtlasPacking.CloseRow | src/renderer/atlas.rs:37-40 | closing a row puts the baseline on top of the tallest glyph and resets extent and tallest, nothing else changing |
| AtlasPacking.Insert | src/renderer/atlas.rs:25-42 | the row closes exactly when the glyph is too wide for what is left of it; the glyph is placed exactly when the (possibly new) row has room, at `(extent, baseline)` or at `(0, baseline + tallest)`; a placed glyph is in the atlas's texture with that slot's UVs and the bitmap's top, left, width and height each cast `as i16`, the cursor moves past it and the row's tallest becomes the larger of the row's and the glyph's height; otherwise `Full` is reported, the row closed only if the glyph was too wide for it |
| AtlasPacking.CloseRowKeepsPacking | src/renderer/atlas.rs:37-40 | closing a row keeps every placed rectangle inside the atlas, below the new row and disjoint |
| AtlasPacking.InsertInnerKeepsPacking | src/renderer/atlas.rs:85-113 | placing a glyph with room at the cursor keeps the packing invariant with its rectangle added |
| AtlasPacking.InsertKeepsPacking | src/renderer/atlas.rs:25-42 | a successful checked insertion lies inside the atlas, overlaps no earlier rectangle and keeps the packing invariant |
| AtlasPacking.InsertUvInUnitSquare | src/renderer/atlas.rs:115-119 | the UVs of a placed glyph lie in the unit square: offsets and extents are non-negative and `uv_left + uv_width <= 1`, `uv_bot + uv_height <= 1` |
| AtlasPacking.InsertAll | src/renderer/atlas.rs:25-42 | inserting glyphs in turn places a prefix of them, all of them unless the atlas fills up, in which case at least one is left over; the `i`-th rectangle has the `i`-th glyph's width and height, and the `i`-th placed glyph is in the atlas's texture with the UVs of that rectangle; when the first glyph reports `Full`, nothing is placed and the atlas comes back as `insert` left it |
| AtlasPacking.InsertAllFullPacked | src/renderer/atlas.rs:25-42 | when the first glyph reports `Full`, the atlas handed back (its row possibly closed) still satisfies the packing invariant |
| AtlasPacking.InsertAllPacked | src/renderer/atlas.rs:25-42 | successive insertions keep the packing invariant over everything placed |
| AtlasPacking.FreshAtlasPacking | src/renderer/atlas.rs:25-42 | the glyphs packed into a fresh atlas lie inside it and are pairwise disjoint |
| GlyphCaching.MissingKey | src/renderer/text/glyph_cache.rs:192 | the placeholder key has character `'\0'` and the same font key and size |
| GlyphCaching.Correct | src/renderer/text/glyph_cache.rs:213-230 | `top` has the reported descent (the font's descent negated, so non-positive) subtracted, i.e. it grows by the magnitude of the descent; `left` grows by the average advance exactly for a zero-width character; every other field is unchanged |
| GlyphCaching.LoadGlyph | src/renderer/text/glyph_cache.rs:213-230 | the loader is called once, on the rasterized glyph with the reported (non-positive) descent subtracted from its top, which raises `top` by the descent's magnitude, and, for a zero-width character only, right by one average advance |
| GlyphCaching.OrInsert | src/renderer/text/glyph_cache.rs:207 | an existing entry wins and is returned; otherwise the new glyph is stored; either way the key maps to the returned glyph |
| GlyphCaching.Get | src/renderer/text/glyph_cache.rs:169-208 | a hit returns the stored glyph and changes nothing; afterwards the key maps to the returned glyph; no entry is overwritten; only the key and its placeholder key are added; a miss rasterizes once and loads at most once; a missing glyph shown as placeholder is stored under `'\0'` too; the cache afterwards is exactly the old one plus `key`, plus the `'\0'` entry only on that placeholder path and only when the font had none |
| GlyphCaching.GetMissOutcome | src/renderer/text/glyph_cache.rs:185-204 | on a miss the glyph is the loaded corrected bitmap; for a shown missing glyph, it is the existing placeholder (no load) or the loaded corrected placeholder; for any other error, the loaded corrected default glyph |
| GlyphCaching.GetTwice | src/renderer/text/glyph_cache.rs:179-207 | looking up a key again returns the identical glyph and makes no call |
| GlyphCaching.MissingGlyphShared | src/renderer/text/glyph_cache.rs:190-202 | two different characters that no font has, same font and size: the second gets the first's glyph without a load, the glyph is cached under `'\0'`, one load and two rasterizations in total |
| GlyphCaching.GetKeepsMissingShared | src/renderer/text/glyph_cache.rs:187-207 | lookups that show missing glyphs keep every cached missing character equal to its font's placeholder |
| GlyphCaching.AsciiKey | src/renderer/text/glyph_cache.rs:92-93 | the preload key of code `i` has character `i`, the given font and the given size |
| GlyphCaching.GetAllAppend | src/renderer/text/glyph_cache.rs:88-95 | looking up `k1 + k2` in turn is looking up `k1`, then `k2` from the cache and loader state that `k1` left |
| GlyphCaching.LoadAsciiFrom | src/renderer/text/glyph_cache.rs:92-94 | looking up codes `code..=126` caches all of them, keeps every existing entry, adds only preload keys of the font, and keeps placeholders shared |
| GlyphCaching.LoadAsciiFromFolds | src/renderer/text/glyph_cache.rs:92-94 | preloading a font's ASCII is the lookups of codes `code..=126` in ascending order, each `get` receiving the loader state the previous one returned |
| GlyphCaching.LoadGlyphsForFont | src/renderer/text/glyph_cache.rs:88-95 | afterwards all printable ASCII (32..=126) of the font is cached at the cache's size; only that font's preload keys are added; nothing is overwritten |
| GlyphCaching.LoadCommonGlyphs | src/renderer/text/glyph_cache.rs:245-250 | afterwards all printable ASCII of regular, bold, italic and bold italic is cached; only their preload keys are added; nothing is overwritten |
| GlyphCaching.LoadCommonGlyphsFolds | src/renderer/text/glyph_cache.rs:245-250 | `load_common_glyphs` is the 4 × 95 lookups of regular, bold, italic and bold italic ASCII in that order, with one loader state threaded through all of them |
| GlyphCaching.CommonKeysInOrder | src/renderer/text/glyph_cache.rs:88-95 | lookup `i` of the preload is ASCII code `32 + i % 95` of style `i / 95` (regular, bold, italic, bold italic) at the cache's size |
| GlyphCaching.ResetGlyphCache | src/renderer/text/glyph_cache.rs:233-238 | after a reset the cache holds only preload keys of the four styles, covers all their printable ASCII, keeps rasterizer and size, and every missing character shares its placeholder |
| GlyphCaching.ResetForgetsOldState | src/renderer/text/glyph_cache.rs:233-238 | the loader is cleared before anything is preloaded and the map is emptied: the result does not depend on the old cache contents, nor on the loader state beyond what `clear` makes of it |
| GlyphCaching.ResetFolds | src/renderer/text/glyph_cache.rs:233-238 | a reset is `clear` once on the loader, then all 4 × 95 preload lookups into an empty map, the cleared loader state threaded through every one of them and the last one's state returned |
| GlyphCaching.ResetSharesPlaceholder | src/renderer/text/glyph_cache.rs:88-95 | after a reset, a preloaded ASCII character that no font has is cached with its font's `'\0'` placeholder glyph |
| GlyphCaching.LoadRegularFont | src/renderer/text/glyph_cache.rs:143-158 | the requested font if it loads, else the result of loading Source Code Pro Regular; a returned key is the one memoised for the request or for Source Code Pro Regular and names a loaded font; memo entries are kept and only those two ids can be added |
| GlyphCaching.LoadOrRegular | src/renderer/text/glyph_cache.rs:111-118 | the regular descriptor itself gives the regular key with the rasterizer untouched; another descriptor gives its memoised key if known, the next token with the opened font memoised if new and openable, and the regular key with the rasterizer untouched if it cannot be opened; memo entries are kept and only its id is added |
| GlyphCaching.LoadOrRegularResolves | src/renderer/text/glyph_cache.rs:111-118 | for a Source Code Pro style at the default size: the style's id is memoised afterwards exactly when it was before or the platform can open it, and the key returned is the memoised one, else the regular key |
| GlyphCaching.StyleKeysResolved | src/renderer/text/glyph_cache.rs:120-138 | after loading bold, italic and bold italic in turn, each style's key is still the one memoised for Source Code Pro in that style at the default size, or the regular key when that font cannot be opened |
| GlyphCaching.ComputeFontKeys | src/renderer/text/glyph_cache.rs:98-141 | fails exactly when the regular font cannot be loaded; otherwise the regular key is the one memoised for Source Code Pro Regular at 16 pt, each other style's key is the one memoised for Source Code Pro in that style at 16 pt, or the regular key when that font cannot be opened; all four name loaded fonts; memo entries are only added |
| GlyphCaching.RegularRetryRedundant | src/renderer/text/glyph_cache.rs:143-158 | for the Source Code Pro Regular request, `load_regular_font` is `load_font` |
| TextBatch.InstanceLayout | src/renderer/text.rs:43-79 | the `#[repr(C)]` layout of `InstanceData`: fields at offsets 0, 2, …, 10, 12, 16, 20, 24, 28, …, 35, each aligned and right after the previous one, 4-byte alignment, 36 bytes in total |
| TextBatch.NewBatch | src/renderer/text.rs:122-125 | a new batch has texture 0, no instances and byte size 0 |
| TextBatch.NewBatchFilled | src/renderer/text.rs:88-125 | a new batch filled item by item holds exactly the items' records in order, `len()` items and `size()` = 36 bytes per item, bound to the first item's texture (texture 0 if nothing was added) |
| TextBatch.Len | src/renderer/text.rs:127-130 | the length is zero exactly for a batch without instances |
| TextBatch.ByteSize | src/renderer/text.rs:132-135 | the byte size is the length times `size_of::<InstanceData>()`, 36 bytes: a whole number of records, zero exactly for an empty batch |
| TextBatch.ByteSizeHoldsEveryField | src/renderer/text.rs:132-135 | in a buffer of `size()` bytes, field `k` of instance `i`, at byte `36 * i` plus the field's offset, lies wholly inside the buffer and is aligned for its type; the last field of the last instance ends exactly at the buffer's end |
| TextBatch.AlphaByte | src/renderer/text.rs:118 | `(alpha * 255.0) as u8`: 0 at or below 0, 255 at or above 255, otherwise the truncated value |
| TextBatch.FlagsOf | src/renderer/text.rs:93-94 | the flag byte is exactly `COLORED` for a multicolour glyph and empty otherwise: no other bit is ever set |
| TextBatch.Instance | src/renderer/text.rs:96-119 | the record has the cell's column and line modulo 2^16, the glyph's geometry and UVs, the cell's foreground and background colours, a flag byte that is `COLORED` or empty as above, and the converted alpha |
| TextBatch.InstanceKeepsGlyph | src/renderer/text.rs:100-113 | the colour mode, geometry and UVs of the glyph can be read back from its record |
| TextBatch.AddItem | src/renderer/text.rs:88-120 | exactly one record is appended, earlier records are unchanged, the byte size grows by one record; the texture is adopted exactly when the batch was empty |
| TextBatch.AddAllAppends | src/renderer/text.rs:88-120 | adding items in turn appends their records in order behind the existing ones; a non-empty batch keeps its texture and an empty one takes the first item's |
| TextBatch.AddAllUniformTexture | src/renderer/text.rs:89-91 | when every glyph added lives in texture `t` and the batch is empty or bound to `t`, the batch is bound to `t` |

## Left out

- OpenGL calls are not modelled: texture creation and upload, binding, shader programs and uniforms (`TextShaderProgram`, `RenderingPass`). The atlas's texture name is a parameter of `NewAtlas`.
- The debug print of the glyph `'E'` in `insert_inner` is not modelled.
- Core Text and Core Graphics are abstract:
  - font matching, descriptors, cascade lists, metrics and bitmap drawing are not modelled;
  - the floating-point rounding of glyph bounds is taken as already done (`PixelBounds`).
- Floating point:
  - UVs are exact rationals (`real`) instead of `f32`;
  - `Size::new` / `as_f32_pts` and the pixel-ratio scaling are an abstract `scaledSize` function;
  - font metrics are integers already cast;
  - the background alpha is a `real` (NaN is not modelled).
- `Size` multiplication (`Mul`) is not modelled; nothing in the modelled code uses it.
- Unicode display width is the abstract `zeroWidth` predicate.
- Two conversions are taken as not overflowing:
  - the `i32` arithmetic of glyph metrics (`top - descent`, `left + average_advance`);
  - the atlas cursors.
- `GlyphCache::new`, `Rasterizer::new`, `metrics`, `update_dpr` and `font_metrics` are left out. They unwrap platform results or only forward platform data; `ComputeFontKeys` covers the font selection `new` performs.
- The growth of the atlas set when an atlas is full and the batch flushing in the draw loop are not modelled. `Insert` reports `Full` and stops there.
- `BATCH_MAX` is only the batch's initial capacity; `add_item` itself never checks it, so `AddItem` has no bound either.
- `FontKey::next` uses a process-wide atomic counter. Here it is a plain counter field of the rasterizer; concurrency is not modelled.
- Crossfont.LoadFont: freshness and validity of keys are proved only while the counter is below 2^32. Above that, `as u32` truncation makes tokens repeat, and `NextFontKey` models that wrap.
- AtlasPacking.InsertInner: requires a positive atlas width and height. The source would divide by zero in `f32` (giving infinities, or NaN for a zero offset), which the `real` UVs cannot express.
- AtlasPacking.Insert: requires a positive atlas width and height, for the same reason as `InsertInner`.
- AtlasPacking.InsertKeepsPacking: assumes non-negative glyph width and height. The disjointness of rectangles with negative extent is not meaningful.
- The atlas's and glyph cache's two `Glyph` structs (and a third unused copy in `src/renderer/glyph_cache.rs`) are one datatype each: `AtlasGlyph` and `GlyphCaching.Glyph`.

=== FILE: atlas.dfy ===
/** Shelf packing of glyph bitmaps into one square texture atlas.

    Glyphs are placed left to right along a row whose bottom edge is
    `rowBaseline`; `rowExtent` is the first free column of that row and
    `rowTallest` the height of its tallest glyph. A glyph that does not fit
    in the rest of the row closes the row: the next row starts on top of
    the tallest glyph of the closed one. A glyph may go into a row only
    while its height is strictly less than the room left above the row's
    baseline. The texture upload itself is not modelled. */
module AtlasPacking {
  import opened Ints
  import opened Crossfont

  /** An OpenGL texture name. */
  type TextureId = UInt32

  datatype Atlas = Atlas(
    id: TextureId,
    width: int,
    height: int,
    rowExtent: int,     // left-most free pixel in the current row
    rowBaseline: int,   // bottom edge of the current row
    rowTallest: int)    // tallest glyph in the current row

  /** A glyph as placed in an atlas: texture, pixel geometry and the
      texture-coordinate rectangle it occupies. */
  datatype AtlasGlyph = AtlasGlyph(
    texId: TextureId,
    top: Int16,
    left: Int16,
    width: Int16,
    height: Int16,
    uvBot: real,
    uvLeft: real,
    uvWidth: real,
    uvHeight: real)

  /** A pixel rectangle of the atlas, anchored at its bottom-left corner. */
  datatype Rect = Rect(x: int, y: int, w: int, h: int)

  datatype Inserted = Inserted(atlas: Atlas, glyph: AtlasGlyph)

  datatype Insertion = Placed(atlas: Atlas, glyph: AtlasGlyph) | Full(atlas: Atlas)

  /** `Atlas::new`: an empty square atlas backed by texture `id`. */
  function NewAtlas(id: TextureId, size: int): (a: Atlas)
    ensures a.id == id && a.width == size && a.height == size
    ensures a.rowExtent == 0 && a.rowBaseline == 0 && a.rowTallest == 0
    ensures size > 0 ==> Packed(a, [])
  {
    Atlas(id, size, size, 0, 0, 0)
  }

  /** The rectangle `g` occupies when placed at the cursor of `a`. */
  function Slot(a: Atlas, g: RasterizedGlyph): Rect {
    Rect(a.rowExtent, a.rowBaseline, g.width, g.height)
  }

  /** The texture coordinates of `glyph` are those of pixel rectangle `r` in `a`. */
  ghost predicate UvOf(glyph: AtlasGlyph, r: Rect, a: Atlas)
    requires a.width > 0 && a.height > 0
  {
    && glyph.uvLeft == r.x as real / a.width as real
    && glyph.uvBot == r.y as real / a.height as real
    && glyph.uvWidth == r.w as real / a.width as real
    && glyph.uvHeight == r.h as real / a.height as real
  }

  /** `Atlas::insert_inner`: place `g` at the cursor, advance the cursor past
      it and grow the row's height if `g` is the tallest so far. */
  function InsertInner(a: Atlas, g: RasterizedGlyph): (r: Inserted)
    requires a.width > 0 && a.height > 0
    ensures r.atlas.id == a.id && r.atlas.width == a.width && r.atlas.height == a.height
    ensures r.atlas.rowExtent == a.rowExtent + g.width
    ensures r.atlas.rowBaseline == a.rowBaseline
    ensures r.atlas.rowTallest >= a.rowTallest && r.atlas.rowTallest >= g.height
    ensures r.atlas.rowTallest == a.rowTallest || r.atlas.rowTallest == g.height
    ensures r.glyph.texId == a.id
    ensures UvOf(r.glyph, Slot(a, g), a)
    ensures (r.glyph.top - g.top) % 0x1_0000 == 0 && (InInt16(g.top) ==> r.glyph.top == g.top)
    ensures (r.glyph.left - g.left) % 0x1_0000 == 0 && (InInt16(g.left) ==> r.glyph.left == g.left)
    ensures (r.glyph.width - g.width) % 0x1_0000 == 0 && (InInt16(g.width) ==> r.glyph.width == g.width)
    ensures (r.glyph.height - g.height) % 0x1_0000 == 0 && (InInt16(g.height) ==> r.glyph.height == g.height)
  {
    var offsetY := a.rowBaseline;
    var offsetX := a.rowExtent;
    var tallest := if g.height > a.rowTallest then g.height else a.rowTallest;
    var atlas := a.(rowExtent := offsetX + g.width, rowTallest := tallest);
    var glyph := AtlasGlyph(
      a.id,
      WrapInt16(g.top), WrapInt16(g.left), WrapInt16(g.width), WrapInt16(g.height),
      offsetY as real / a.height as real,
      offsetX as real / a.width as real,
      g.width as real / a.width as real,
      g.height as real / a.height as real);
    Inserted(atlas, glyph)
  }

  /** The rest of the current row is wide enough for `g`. */
  predicate FitsInRow(a: Atlas, g: RasterizedGlyph) {
    a.rowExtent + g.width <= a.width
  }

  /** `g` fits in the current row: horizontally, and strictly below the top edge. */
  predicate HasRoom(a: Atlas, g: RasterizedGlyph) {
    FitsInRow(a, g) && g.height < a.height - a.rowBaseline
  }

  /** Close the current row: the next row starts on top of its tallest glyph. */
  function CloseRow(a: Atlas): (r: Atlas)
    ensures r.rowBaseline == a.rowBaseline + a.rowTallest
    ensures r.rowExtent == 0 && r.rowTallest == 0
    ensures r.(rowExtent := a.rowExtent, rowBaseline := a.rowBaseline, rowTallest := a.rowTallest) == a
  {
    a.(rowBaseline := a.rowBaseline + a.rowTallest, rowExtent := 0, rowTallest := 0)
  }

  /** The atlas `g` is placed into: `a`, or `a` with its row closed. */
  function RowFor(a: Atlas, g: RasterizedGlyph): Atlas {
    if FitsInRow(a, g) then a else CloseRow(a)
  }

  /** Where `Insert` places `g`. */
  function Placement(a: Atlas, g: RasterizedGlyph): Rect {
    Slot(RowFor(a, g), g)
  }

  /** Checked insertion following the packing policy of the atlas: close the
      row if `g` does not fit in it, report `Full` if it still has no room,
      and otherwise place it with `InsertInner`. */
  function Insert(a: Atlas, g: RasterizedGlyph): (r: Insertion)
    requires a.width > 0 && a.height > 0
    ensures r.Placed? <==> HasRoom(RowFor(a, g), g)
    ensures r.atlas.id == a.id && r.atlas.width == a.width && r.atlas.height == a.height
    ensures FitsInRow(a, g) ==> r.atlas.rowBaseline == a.rowBaseline
    ensures !FitsInRow(a, g) ==> r.atlas.rowBaseline == a.rowBaseline + a.rowTallest
    ensures FitsInRow(a, g) ==> Placement(a, g) == Rect(a.rowExtent, a.rowBaseline, g.width, g.height)
    ensures !FitsInRow(a, g) ==> Placement(a, g) == Rect(0, a.rowBaseline + a.rowTallest, g.width, g.height)
    ensures r.Full? ==> r.atlas == RowFor(a, g)
    ensures r.Placed? ==>
      && r.glyph.texId == a.id
      && UvOf(r.glyph, Placement(a, g), a)
      && r.atlas.rowExtent == Placement(a, g).x + g.width
      // The row's height becomes the taller of the (possibly new) row and the glyph.
      && r.atlas.rowTallest >= g.height && r.atlas.rowTallest >= RowFor(a, g).rowTallest
      && (r.atlas.rowTallest == g.height || r.atlas.rowTallest == RowFor(a, g).rowTallest)
      // The glyph's geometry is the bitmap's, each cast `as i16`.
      && r.glyph.top == WrapInt16(g.top) && r.glyph.left == WrapInt16(g.left)
      && r.glyph.width == WrapInt16(g.width) && r.glyph.height == WrapInt16(g.height)
  {
    var row := RowFor(a, g);
    if HasRoom(row, g) then
      var inserted := InsertInner(row, g);
      Placed(inserted.atlas, inserted.glyph)
    else
      Full(row)
  }

  /** `r` lies inside the atlas. */
  ghost predicate Within(r: Rect, a: Atlas) {
    && 0 <= r.x && 0 <= r.w && r.x + r.w <= a.width
    && 0 <= r.y && 0 <= r.h && r.y + r.h <= a.height
  }

  /** The interiors of two rectangles do not meet. */
  predicate Disjoint(r1: Rect, r2: Rect) {
    r1.x + r1.w <= r2.x || r2.x + r2.w <= r1.x || r1.y + r1.h <= r2.y || r2.y + r2.h <= r1.y
  }

  /** `r` belongs to a row that has been closed. */
  predicate BelowRow(r: Rect, a: Atlas) {
    r.y + r.h <= a.rowBaseline
  }

  /** `r` belongs to the current row, left of the cursor. */
  predicate InRow(r: Rect, a: Atlas) {
    r.y == a.rowBaseline && r.x + r.w <= a.rowExtent && r.h <= a.rowTallest
  }

  /** The packing invariant: `rects` are the rectangles placed so far; each
      lies inside the atlas, in a closed row or left of the cursor, and no
      two overlap. */
  ghost predicate Packed(a: Atlas, rects: seq<Rect>) {
    && a.width > 0 && a.height > 0
    && 0 <= a.rowExtent <= a.width
    && 0 <= a.rowBaseline && 0 <= a.rowTallest && a.rowBaseline + a.rowTallest <= a.height
    && (forall i :: 0 <= i < |rects| ==> Within(rects[i], a))
    && (forall i :: 0 <= i < |rects| ==> BelowRow(rects[i], a) || InRow(rects[i], a))
    && (forall i, j :: 0 <= i < j < |rects| ==> Disjoint(rects[i], rects[j]))
  }

  /** Closing a row keeps the packing invariant. */
  lemma CloseRowKeepsPacking(a: Atlas, rects: seq<Rect>)
    requires Packed(a, rects)
    ensures Packed(CloseRow(a), rects)
  {
    var c := CloseRow(a);
    forall i | 0 <= i < |rects|
      ensures Within(rects[i], c) && BelowRow(rects[i], c)
    {
    }
  }

  /** Placing a glyph that has room at the cursor keeps the packing
      invariant, with its rectangle added. */
  lemma InsertInnerKeepsPacking(a: Atlas, rects: seq<Rect>, g: RasterizedGlyph)
    requires Packed(a, rects)
    requires HasRoom(a, g) && g.width >= 0 && g.height >= 0
    ensures Packed(InsertInner(a, g).atlas, rects + [Slot(a, g)])
  {
    var a' := InsertInner(a, g).atlas;
    var n := Slot(a, g);
    var rects' := rects + [n];
    forall i | 0 <= i < |rects'|
      ensures Within(rects'[i], a') && (BelowRow(rects'[i], a') || InRow(rects'[i], a'))
    {
      if i < |rects| {
        assert rects'[i] == rects[i];
      }
    }
    forall i, j | 0 <= i < j < |rects'|
      ensures Disjoint(rects'[i], rects'[j])
    {
      if j == |rects| {
        assert rects'[i] == rects[i] && rects'[j] == n;
        assert BelowRow(rects[i], a) || InRow(rects[i], a);
      } else {
        assert rects'[i] == rects[i] && rects'[j] == rects[j];
      }
    }
  }

  /** A checked insertion that succeeds keeps the packing invariant: the new
      rectangle lies inside the atlas and overlaps none placed before. */
  lemma InsertKeepsPacking(a: Atlas, rects: seq<Rect>, g: RasterizedGlyph)
    requires Packed(a, rects)
    requires g.width >= 0 && g.height >= 0
    requires Insert(a, g).Placed?
    ensures Packed(Insert(a, g).atlas, rects + [Placement(a, g)])
    ensures Within(Placement(a, g), a)
    ensures forall i :: 0 <= i < |rects| ==> Disjoint(rects[i], Placement(a, g))
  {
    var row := RowFor(a, g);
    if !FitsInRow(a, g) {
      CloseRowKeepsPacking(a, rects);
    }
    InsertInnerKeepsPacking(row, rects, g);
    var rects' := rects + [Placement(a, g)];
    assert rects'[|rects|] == Placement(a, g);
    forall i | 0 <= i < |rects|
      ensures Disjoint(rects[i], Placement(a, g))
    {
      assert rects'[i] == rects[i];
    }
  }

  /** Offsets and extents inside `[0, whole]` give fractions inside `[0, 1]`. */
  lemma FractionsInUnit(offset: int, extent: int, whole: int)
    requires 0 <= offset && 0 <= extent && offset + extent <= whole && whole > 0
    ensures 0.0 <= offset as real / whole as real
    ensures 0.0 <= extent as real / whole as real
    ensures offset as real / whole as real + extent as real / whole as real <= 1.0
  {
    var w := whole as real;
    assert offset as real / w + extent as real / w == (offset + extent) as real / w;
    assert (offset + extent) as real <= w;
  }

  /** Every glyph placed by a checked insertion has texture coordinates in
      the unit square. */
  lemma InsertUvInUnitSquare(a: Atlas, rects: seq<Rect>, g: RasterizedGlyph)
    requires Packed(a, rects)
    requires g.width >= 0 && g.height >= 0
    requires Insert(a, g).Placed?
    ensures var glyph := Insert(a, g).glyph;
      && 0.0 <= glyph.uvLeft && 0.0 <= glyph.uvWidth && glyph.uvLeft + glyph.uvWidth <= 1.0
      && 0.0 <= glyph.uvBot && 0.0 <= glyph.uvHeight && glyph.uvBot + glyph.uvHeight <= 1.0
  {
    InsertKeepsPacking(a, rects, g);
    var p := Placement(a, g);
    FractionsInUnit(p.x, p.w, a.width);
    FractionsInUnit(p.y, p.h, a.height);
  }

  /** The outcome of inserting a sequence of glyphs into one atlas, stopping
      at the first that does not fit. */
  datatype Packing = Packing(atlas: Atlas, placed: seq<Rect>, glyphs: seq<AtlasGlyph>, full: bool)

  /** The `i`-th rectangle is the `i`-th bitmap's, and the `i`-th placed
      glyph's UVs are that rectangle's in an atlas of `a`'s size. */
  ghost predicate InOrder(placed: seq<Rect>, glyphs: seq<AtlasGlyph>, gs: seq<RasterizedGlyph>, a: Atlas)
    requires a.width > 0 && a.height > 0
  {
    && |placed| == |glyphs| <= |gs|
    && forall i :: 0 <= i < |placed| ==>
         && placed[i].w == gs[i].width && placed[i].h == gs[i].height
         && UvOf(glyphs[i], placed[i], a)
  }

  /** Placing the first bitmap ahead of an in-order run of the rest keeps the
      run in order, the atlas having kept its size. */
  lemma InOrderCons(r: Rect, glyph: AtlasGlyph, placed: seq<Rect>, glyphs: seq<AtlasGlyph>,
                    gs: seq<RasterizedGlyph>, a: Atlas, a': Atlas)
    requires a.width > 0 && a.height > 0 && a'.width == a.width && a'.height == a.height
    requires |gs| > 0 && r.w == gs[0].width && r.h == gs[0].height && UvOf(glyph, r, a)
    requires InOrder(placed, glyphs, gs[1..], a')
    ensures InOrder([r] + placed, [glyph] + glyphs, gs, a)
  {
    var placed', glyphs' := [r] + placed, [glyph] + glyphs;
    forall i | 0 <= i < |placed'|
      ensures placed'[i].w == gs[i].width && placed'[i].h == gs[i].height && UvOf(glyphs'[i], placed'[i], a)
    {
      if i > 0 {
        assert placed'[i] == placed[i - 1] && glyphs'[i] == glyphs[i - 1] && gs[i] == gs[1..][i - 1];
      }
    }
  }

  /** Insert `gs` in order while the atlas has room. */
  function InsertAll(a: Atlas, gs: seq<RasterizedGlyph>): (p: Packing)
    requires a.width > 0 && a.height > 0
    ensures |p.placed| == |p.glyphs| <= |gs|
    ensures !p.full ==> |p.placed| == |gs|
    ensures p.atlas.id == a.id && p.atlas.width == a.width && p.atlas.height == a.height
    ensures p.full ==> |p.placed| < |gs|
    // A glyph without room stops the run, handing back the atlas as `Insert` left it.
    ensures |gs| > 0 && Insert(a, gs[0]).Full? ==> p == Packing(Insert(a, gs[0]).atlas, [], [], true)
    ensures forall i :: 0 <= i < |p.glyphs| ==> p.glyphs[i].texId == a.id
    ensures InOrder(p.placed, p.glyphs, gs, a)
    decreases |gs|
  {
    if |gs| == 0 then
      Packing(a, [], [], false)
    else
      match Insert(a, gs[0])
      case Full(closed) => Packing(closed, [], [], true)
      case Placed(a', glyph) =>
        var rest := InsertAll(a', gs[1..]);
        InOrderCons(Placement(a, gs[0]), glyph, rest.placed, rest.glyphs, gs, a, a');
        Packing(rest.atlas, [Placement(a, gs[0])] + rest.placed, [glyph] + rest.glyphs, rest.full)
  }

  /** When the first glyph does not fit, nothing is placed and the atlas
      handed back (its row possibly closed) still satisfies the invariant. */
  lemma InsertAllFullPacked(a: Atlas, rects: seq<Rect>, gs: seq<RasterizedGlyph>)
    requires Packed(a, rects)
    requires |gs| > 0 && Insert(a, gs[0]).Full?
    ensures Packed(InsertAll(a, gs).atlas, rects + InsertAll(a, gs).placed)
  {
    if !FitsInRow(a, gs[0]) {
      CloseRowKeepsPacking(a, rects);
    }
    assert InsertAll(a, gs) == Packing(RowFor(a, gs[0]), [], [], true);
    assert rects + [] == rects;
  }

  /** A glyph that is placed comes first, ahead of what the rest of the
      sequence places into the atlas it leaves. */
  lemma InsertAllUnfold(a: Atlas, gs: seq<RasterizedGlyph>)
    requires a.width > 0 && a.height > 0 && |gs| > 0 && Insert(a, gs[0]).Placed?
    ensures var rest := InsertAll(Insert(a, gs[0]).atlas, gs[1..]);
      && InsertAll(a, gs).atlas == rest.atlas
      && InsertAll(a, gs).placed == [Placement(a, gs[0])] + rest.placed
  {
  }

  /** Packing is a property of the rectangles, not of how they were grouped:
      `rects`, then `first`, then `more` is `rects` followed by `first :: more`.
      A bookkeeping step only: proved apart so that `InsertAllPacked` stays
      within the solver's budget. */
  lemma PackedRegrouped(a: Atlas, rects: seq<Rect>, first: Rect, more: seq<Rect>, whole: seq<Rect>)
    requires whole == [first] + more
    requires Packed(a, rects + [first] + more)
    ensures Packed(a, rects + whole)
  {
    assert rects + [first] + more == rects + whole;
  }

  /** Glyphs inserted one after another into an atlas all land inside it and
      never overlap each other or anything placed before. */
  lemma {:induction false} InsertAllPacked(a: Atlas, rects: seq<Rect>, gs: seq<RasterizedGlyph>)
    requires Packed(a, rects)
    requires forall i :: 0 <= i < |gs| ==> gs[i].width >= 0 && gs[i].height >= 0
    ensures Packed(InsertAll(a, gs).atlas, rects + InsertAll(a, gs).placed)
    decreases |gs|
  {
    if |gs| == 0 {
      assert rects + InsertAll(a, gs).placed == rects;
    } else if Insert(a, gs[0]).Placed? {
      InsertKeepsPacking(a, rects, gs[0]);
      InsertAllPacked(Insert(a, gs[0]).atlas, rects + [Placement(a, gs[0])], gs[1..]);
      InsertAllUnfold(a, gs);
      var rest := InsertAll(Insert(a, gs[0]).atlas, gs[1..]);
      PackedRegrouped(rest.atlas, rects, Placement(a, gs[0]), rest.placed, InsertAll(a, gs).placed);
    } else {
      InsertAllFullPacked(a, rects, gs);
    }
  }

  /** Packed rectangles lie inside any atlas of the same size and are pairwise disjoint. */
  lemma PackedInSameSize(a: Atlas, b: Atlas, rects: seq<Rect>)
    requires Packed(a, rects) && b.width == a.width && b.height == a.height
    ensures forall i :: 0 <= i < |rects| ==> Within(rects[i], b)
    ensures forall i, j :: 0 <= i < j < |rects| ==> Disjoint(rects[i], rects[j])
  {
    forall i | 0 <= i < |rects|
      ensures Within(rects[i], b)
    {
      assert Within(rects[i], a);
    }
  }

  /** Packing a fresh atlas yields pairwise disjoint rectangles inside it. */
  lemma FreshAtlasPacking(id: TextureId, size: int, gs: seq<RasterizedGlyph>)
    requires size > 0
    requires forall i :: 0 <= i < |gs| ==> gs[i].width >= 0 && gs[i].height >= 0
    ensures var p := InsertAll(NewAtlas(id, size), gs);
      && (forall i :: 0 <= i < |p.placed| ==> Within(p.placed[i], NewAtlas(id, size)))
      && (forall i, j :: 0 <= i < j < |p.placed| ==> Disjoint(p.placed[i], p.placed[j]))
  {
    var a := NewAtlas(id, size);
    var p := InsertAll(a, gs);
    InsertAllPacked(a, [], gs);
    assert [] + p.placed == p.placed;
    PackedInSameSize(p.atlas, a, p.placed);
  }
}

=== FILE: batch.dfy ===
/** The instance batch of the text renderer: the per-glyph records sent to
    the graphics card in one draw call, together with the texture they are
    drawn from. A batch only grows; it adopts the texture of the first glyph
    added to it. */
module TextBatch {
  import opened Ints
  import AtlasPacking
  import GlyphCaching

  /** Maximum items to be drawn in a batch (the batch's initial capacity). */
  const BATCH_MAX: nat := 0x1_0000

  /** `RenderingGlyphFlags`: bit flags shared with the text shaders. */
  const COLORED: bv8 := 1
  const WIDE_CHAR: bv8 := 2

  datatype Rgb = Rgb(r: UInt8, g: UInt8, b: UInt8)

  /** A cell ready for rendering. `bgAlpha` is the background opacity in [0, 1]. */
  datatype RenderableCell = RenderableCell(
    character: char,
    line: nat,
    column: nat,
    fg: Rgb,
    bg: Rgb,
    bgAlpha: real,
    fontKey: nat)

  /** `InstanceData`: the record the vertex shader reads for one glyph. */
  datatype InstanceData = InstanceData(
    col: UInt16,
    row: UInt16,
    left: Int16,
    top: Int16,
    width: Int16,
    height: Int16,
    uvLeft: real,
    uvBot: real,
    uvWidth: real,
    uvHeight: real,
    r: UInt8,
    g: UInt8,
    b: UInt8,
    cellFlags: bv8,
    bgR: UInt8,
    bgG: UInt8,
    bgB: UInt8,
    bgA: UInt8)

  datatype Batch = Batch(tex: AtlasPacking.TextureId, instances: seq<InstanceData>)

  /** A field of a `#[repr(C)]` record: its size and alignment in bytes. */
  datatype Field = Field(size: nat, align: nat)

  /** Every field sits at a multiple of its alignment, and `maxAlign` is the largest alignment. */
  ghost predicate AlignedFields(fields: seq<Field>, offs: seq<nat>, maxAlign: nat) {
    && |offs| == |fields|
    && (forall i :: 0 <= i < |fields| ==> 0 < fields[i].align <= maxAlign && offs[i] % fields[i].align == 0)
    && (exists i :: 0 <= i < |fields| && fields[i].align == maxAlign)
  }

  /** Fields follow each other in declaration order from offset 0, each at
      the first offset after the previous field that its alignment allows. */
  ghost predicate TightlyOrdered(fields: seq<Field>, offs: seq<nat>)
    requires |offs| == |fields|
  {
    && (|fields| > 0 ==> offs[0] == 0)
    && (forall i :: 0 < i < |fields| ==>
          offs[i - 1] + fields[i - 1].size <= offs[i] < offs[i - 1] + fields[i - 1].size + fields[i].align)
  }

  /** The record's size is the end of its last field rounded up to `maxAlign`,
      so that arrays of it keep every field aligned. */
  ghost predicate RoundedSize(fields: seq<Field>, offs: seq<nat>, maxAlign: nat, size: nat)
    requires |offs| == |fields| && maxAlign > 0
  {
    && size % maxAlign == 0
    && (|fields| == 0 ==> size == 0)
    && (|fields| > 0 ==>
          offs[|fields| - 1] + fields[|fields| - 1].size <= size < offs[|fields| - 1] + fields[|fields| - 1].size + maxAlign)
  }

  /** `offs` and `size` are the `#[repr(C)]` layout of `fields`. */
  ghost predicate IsReprCLayout(fields: seq<Field>, offs: seq<nat>, maxAlign: nat, size: nat) {
    && AlignedFields(fields, offs, maxAlign)
    && maxAlign > 0
    && TightlyOrdered(fields, offs)
    && RoundedSize(fields, offs, maxAlign, size)
  }

  /** The fields of `InstanceData` in declaration order: six 16-bit
      integers, four `f32`s and eight bytes (the flags are one byte). */
  const INSTANCE_FIELDS: seq<Field> :=
    [Field(2, 2), Field(2, 2), Field(2, 2), Field(2, 2), Field(2, 2), Field(2, 2),
     Field(4, 4), Field(4, 4), Field(4, 4), Field(4, 4),
     Field(1, 1), Field(1, 1), Field(1, 1), Field(1, 1),
     Field(1, 1), Field(1, 1), Field(1, 1), Field(1, 1)]

  /** Byte offsets of the fields of `InstanceData`. */
  const INSTANCE_OFFSETS: seq<nat> := [0, 2, 4, 6, 8, 10, 12, 16, 20, 24, 28, 29, 30, 31, 32, 33, 34, 35]

  /** `size_of::<InstanceData>()`. */
  const INSTANCE_SIZE: nat := 36

  lemma InstanceFieldsAligned()
    ensures AlignedFields(INSTANCE_FIELDS, INSTANCE_OFFSETS, 4)
  {
    var fields, offs := INSTANCE_FIELDS, INSTANCE_OFFSETS;
    forall i | 0 <= i < 18
      ensures 0 < fields[i].align <= 4 && offs[i] % fields[i].align == 0
    {
      if i < 6 {
        assert fields[i] == Field(2, 2) && offs[i] == 2 * i;
      } else if i < 10 {
        assert fields[i] == Field(4, 4) && offs[i] == 12 + 4 * (i - 6);
      } else {
        assert fields[i] == Field(1, 1);
      }
    }
    assert fields[6].align == 4;
  }

  lemma InstanceFieldsOrdered()
    ensures TightlyOrdered(INSTANCE_FIELDS, INSTANCE_OFFSETS)
  {
    var fields, offs := INSTANCE_FIELDS, INSTANCE_OFFSETS;
    forall i | 0 < i < 18
      ensures offs[i - 1] + fields[i - 1].size <= offs[i] < offs[i - 1] + fields[i - 1].size + fields[i].align
    {
      if i < 6 {
        assert fields[i - 1] == Field(2, 2) && offs[i] == 2 * i && offs[i - 1] == 2 * (i - 1);
      } else if i < 11 {
        assert fields[i - 1] == Field(if i == 6 then 2 else 4, if i == 6 then 2 else 4);
      } else {
        assert fields[i - 1] == Field(1, 1) && offs[i] == 18 + i && offs[i - 1] == 17 + i;
      }
    }
  }

  /** The record has no padding: its fields end at byte 36, already a
      multiple of its 4-byte alignment. */
  lemma InstanceLayout()
    ensures IsReprCLayout(INSTANCE_FIELDS, INSTANCE_OFFSETS, 4, INSTANCE_SIZE)
  {
    InstanceFieldsAligned();
    InstanceFieldsOrdered();
  }

  /** `Batch::new`. */
  function NewBatch(): (b: Batch)
    ensures b.tex == 0 && Len(b) == 0 && ByteSize(b) == 0
  {
    Batch(0, [])
  }

  /** `Batch::len`: the number of instances. */
  function Len(b: Batch): (n: nat)
    ensures n == 0 <==> b.instances == []
  {
    |b.instances|
  }

  /** `Batch::size`: the bytes the instances occupy in a vertex buffer, one
      `size_of::<InstanceData>()` (36, see `InstanceLayout`) per instance. */
  function ByteSize(b: Batch): (n: nat)
    ensures n == Len(b) * INSTANCE_SIZE
    ensures n % INSTANCE_SIZE == 0
    ensures n == 0 <==> b.instances == []
    ensures Len(b) <= n
  {
    Len(b) * INSTANCE_SIZE
  }

  /** Field `k` lies inside the 36-byte record at an offset aligned for it;
      the last field ends exactly at the record's end. */
  lemma FieldInRecord(k: nat)
    requires k < |INSTANCE_FIELDS|
    ensures var f, o := INSTANCE_FIELDS[k], INSTANCE_OFFSETS[k];
      && o + f.size <= INSTANCE_SIZE
      && (f.align == 1 || f.align == 2 || f.align == 4)
      && o % f.align == 0
      && (k == |INSTANCE_FIELDS| - 1 ==> o + f.size == INSTANCE_SIZE)
  {
    var f, o := INSTANCE_FIELDS[k], INSTANCE_OFFSETS[k];
    if k < 6 {
      assert f == Field(2, 2) && o == 2 * k;
    } else if k < 10 {
      assert f == Field(4, 4) && o == 12 + 4 * (k - 6);
    } else {
      assert f == Field(1, 1) && o == 18 + k;
    }
  }

  /** Record `i` starts at a byte offset that every field alignment divides. */
  lemma RecordStartAligned(i: nat, align: nat)
    requires align == 1 || align == 2 || align == 4
    ensures (i * INSTANCE_SIZE) % align == 0
  {
    var start := i * INSTANCE_SIZE;
    if align == 2 {
      assert start == 2 * (18 * i);
    } else if align == 4 {
      assert start == 4 * (9 * i);
    }
  }

  /** A buffer of `ByteSize(b)` bytes holds the instances back to back: field
      `k` of instance `i`, at byte `i * 36` plus its offset in the record, lies
      wholly inside the buffer and is aligned, because the record has no
      trailing padding and its size is a multiple of its alignment. The fit
      is tight: the last field of the last instance ends at the buffer's end. */
  lemma ByteSizeHoldsEveryField(b: Batch, i: nat, k: nat)
    requires i < Len(b) && k < |INSTANCE_FIELDS|
    ensures var at := i * INSTANCE_SIZE + INSTANCE_OFFSETS[k];
      && at + INSTANCE_FIELDS[k].size <= ByteSize(b)
      && at % INSTANCE_FIELDS[k].align == 0
    ensures i == Len(b) - 1 && k == |INSTANCE_FIELDS| - 1 ==>
      i * INSTANCE_SIZE + INSTANCE_OFFSETS[k] + INSTANCE_FIELDS[k].size == ByteSize(b)
  {
    var f, o := INSTANCE_FIELDS[k], INSTANCE_OFFSETS[k];
    FieldInRecord(k);
    RecordStartAligned(i, f.align);
    var start := i * INSTANCE_SIZE;
    assert start + INSTANCE_SIZE == (i + 1) * INSTANCE_SIZE;
    assert (i + 1) * INSTANCE_SIZE <= ByteSize(b);
    assert (start + o) % f.align == 0;
  }

  /** `(x * 255.0) as u8`: scale to a byte, truncating toward zero and
      saturating at both ends of the byte range. */
  function AlphaByte(alpha: real): (r: UInt8)
    ensures alpha * 255.0 <= 0.0 ==> r == 0
    ensures alpha * 255.0 >= 255.0 ==> r == 255
    ensures 0.0 < alpha * 255.0 < 255.0 ==> r as real <= alpha * 255.0 < r as real + 1.0
  {
    var scaled := alpha * 255.0;
    if scaled <= 0.0 then 0
    else if scaled >= 255.0 then 255
    else scaled.Floor
  }

  /** The shader flags of a glyph: `COLORED` exactly for a multicolour glyph. */
  function FlagsOf(glyph: GlyphCaching.Glyph): (f: bv8)
    ensures (f & COLORED != 0) <==> glyph.multicolor
    ensures f & WIDE_CHAR == 0
    ensures f & !COLORED == 0
  {
    if glyph.multicolor then COLORED else 0
  }

  /** The instance `add_item` builds for `cell` drawn with `glyph`. */
  function Instance(cell: RenderableCell, glyph: GlyphCaching.Glyph): (d: InstanceData)
    ensures d.col as int == cell.column % 0x1_0000 && d.row as int == cell.line % 0x1_0000
    ensures (d.top, d.left, d.width, d.height) == (glyph.top, glyph.left, glyph.width, glyph.height)
    ensures (d.uvBot, d.uvLeft, d.uvWidth, d.uvHeight) == (glyph.uvBot, glyph.uvLeft, glyph.uvWidth, glyph.uvHeight)
    ensures Rgb(d.r, d.g, d.b) == cell.fg && Rgb(d.bgR, d.bgG, d.bgB) == cell.bg
    ensures (d.cellFlags & COLORED != 0) <==> glyph.multicolor
    ensures d.cellFlags & WIDE_CHAR == 0
    ensures d.cellFlags & !COLORED == 0
    ensures d.bgA == AlphaByte(cell.bgAlpha)
  {
    InstanceData(
      col := WrapUInt16(cell.column),
      row := WrapUInt16(cell.line),
      left := glyph.left,
      top := glyph.top,
      width := glyph.width,
      height := glyph.height,
      uvLeft := glyph.uvLeft,
      uvBot := glyph.uvBot,
      uvWidth := glyph.uvWidth,
      uvHeight := glyph.uvHeight,
      r := cell.fg.r,
      g := cell.fg.g,
      b := cell.fg.b,
      cellFlags := FlagsOf(glyph),
      bgR := cell.bg.r,
      bgG := cell.bg.g,
      bgB := cell.bg.b,
      bgA := AlphaByte(cell.bgAlpha))
  }

  /** The glyph geometry and colour mode read back from an instance. */
  function GlyphView(d: InstanceData): (bool, Int16, Int16, Int16, Int16, real, real, real, real) {
    (d.cellFlags & COLORED != 0, d.top, d.left, d.width, d.height, d.uvBot, d.uvLeft, d.uvWidth, d.uvHeight)
  }

  /** An instance determines the glyph it draws up to the texture: two
      glyphs that produce the same instance agree on everything the shader
      reads. */
  lemma InstanceKeepsGlyph(cell: RenderableCell, glyph: GlyphCaching.Glyph)
    ensures GlyphView(Instance(cell, glyph)) ==
      (glyph.multicolor, glyph.top, glyph.left, glyph.width, glyph.height,
       glyph.uvBot, glyph.uvLeft, glyph.uvWidth, glyph.uvHeight)
  {
  }

  /** `Batch::add_item`. */
  function AddItem(b: Batch, cell: RenderableCell, glyph: GlyphCaching.Glyph): (r: Batch)
    // Append-only: one instance more, the earlier ones untouched and in order.
    ensures Len(r) == Len(b) + 1
    ensures r.instances[..Len(b)] == b.instances
    ensures r.instances[Len(b)] == Instance(cell, glyph)
    // The texture is adopted exactly when the batch was empty.
    ensures Len(b) == 0 ==> r.tex == glyph.texId
    ensures Len(b) > 0 ==> r.tex == b.tex
    ensures ByteSize(r) == ByteSize(b) + INSTANCE_SIZE
  {
    var tex := if Len(b) == 0 then glyph.texId else b.tex;
    Batch(tex, b.instances + [Instance(cell, glyph)])
  }

  /** A cell together with the glyph it is drawn with. */
  datatype Item = Item(cell: RenderableCell, glyph: GlyphCaching.Glyph)

  /** Add `items` to `b` in order. */
  function AddAll(b: Batch, items: seq<Item>): (r: Batch)
    decreases |items|
  {
    if |items| == 0 then b
    else AddAll(AddItem(b, items[0].cell, items[0].glyph), items[1..])
  }

  /** Adding a sequence of items appends their instances in order and
      keeps the texture of a non-empty batch; an empty batch takes the
      texture of the first item. */
  lemma {:induction false} AddAllAppends(b: Batch, items: seq<Item>)
    ensures var r := AddAll(b, items);
      && Len(r) == Len(b) + |items|
      && r.instances[..Len(b)] == b.instances
      && (forall i :: 0 <= i < |items| ==> r.instances[Len(b) + i] == Instance(items[i].cell, items[i].glyph))
      && (Len(b) > 0 ==> r.tex == b.tex)
      && (Len(b) == 0 && |items| > 0 ==> r.tex == items[0].glyph.texId)
    decreases |items|
  {
    if |items| > 0 {
      var b' := AddItem(b, items[0].cell, items[0].glyph);
      AddAllAppends(b', items[1..]);
      var r := AddAll(b', items[1..]);
      assert r.instances[..Len(b)] == r.instances[..Len(b')][..Len(b)];
      forall i | 0 <= i < |items|
        ensures r.instances[Len(b) + i] == Instance(items[i].cell, items[i].glyph)
      {
        if i == 0 {
          assert r.instances[Len(b)] == r.instances[..Len(b')][Len(b)];
        } else {
          assert items[1..][i - 1] == items[i];
        }
      }
    }
  }

  /** When every added glyph lives in texture `t` and the batch is empty or
      already bound to `t`, the batch is bound to `t`: every instance is
      drawn from the texture its glyph was packed into. */
  lemma {:induction false} AddAllUniformTexture(b: Batch, items: seq<Item>, t: AtlasPacking.TextureId)
    requires forall i :: 0 <= i < |items| ==> items[i].glyph.texId == t
    requires Len(b) == 0 || b.tex == t
    requires Len(b) > 0 || |items| > 0
    ensures AddAll(b, items).tex == t
    decreases |items|
  {
    if |items| > 0 {
      var b' := AddItem(b, items[0].cell, items[0].glyph);
      assert b'.tex == t;
      AddAllUniformTexture(b', items[1..], t);
    }
  }

  /** A new batch filled with `items` holds exactly their records, in order,
      occupies one record's bytes per item, and is bound to the first
      item's texture (or texture 0 when nothing was added). */
  lemma {:induction false} NewBatchFilled(items: seq<Item>)
    ensures var r := AddAll(NewBatch(), items);
      && Len(r) == |items| && ByteSize(r) == |items| * INSTANCE_SIZE
      && (forall i :: 0 <= i < |items| ==> r.instances[i] == Instance(items[i].cell, items[i].glyph))
      && r.tex == (if |items| == 0 then 0 else items[0].glyph.texId)
  {
    AddAllAppends(NewBatch(), items);
  }
}

=== FILE: crossfont.dfy ===
/** The font rasterizer of crossfont (macOS backend): font loading with
    memoised keys, glyph lookup through a font's fallback chain, and the
    empty-glyph conventions. Core Text and Core Graphics are not modelled;
    every query the rasterizer makes of them is a field of `Platform`. */
module Crossfont {
  import opened Ints

  /** Glyph index 0 is the "missing glyph" of every TrueType font. */
  const MISSING_GLYPH_INDEX: nat := 0

  /** Number of distinct `FontKey` tokens (they are `u32`). */
  const TOKEN_SPACE: nat := 0x1_0000_0000

  datatype Option<T> = None | Some(value: T)

  datatype Result<T> = Ok(value: T) | Err(error: Error)

  /** Font size in half points (`Size::factor` is 2), stored as `i16`. */
  datatype Size = Size(halfPoints: Int16)

  datatype Slant = Normal | Italic | Oblique

  datatype Weight = Normal | Bold

  datatype Style = Specific(name: string) | Description(slant: Slant, weight: Weight)

  datatype FontDesc = FontDesc(name: string, style: Style)

  /** Identifier of a loaded font. */
  datatype FontKey = FontKey(token: UInt32)

  /** Identity of one glyph: character, font and size. */
  datatype GlyphKey = GlyphKey(character: char, fontKey: FontKey, size: Size)

  datatype BitmapBuffer =
    | Rgb(bytes: seq<UInt8>)    // alpha mask, three bytes per pixel
    | Rgba(bytes: seq<UInt8>)   // premultiplied colour, four bytes per pixel

  datatype RasterizedGlyph = RasterizedGlyph(
    character: char,
    width: int,
    height: int,
    top: int,
    left: int,
    advance: (int, int),
    buffer: BitmapBuffer)

  datatype Error =
    | FontNotFound(desc: FontDesc)
    | MetricsNotFound
    | MissingGlyph(glyph: RasterizedGlyph)
    | UnknownFontKey
    | PlatformError(message: string)

  /** `RasterizedGlyph::default()`: a blank, zero-size glyph. */
  const DEFAULT_GLYPH: RasterizedGlyph := RasterizedGlyph(' ', 0, 0, 0, 0, (0, 0), Rgb([]))

  /** A glyph that occupies no pixels and carries no bitmap. */
  predicate IsEmptyGlyph(g: RasterizedGlyph) {
    && g.width == 0 && g.height == 0
    && g.top == 0 && g.left == 0
    && g.advance == (0, 0)
    && g.buffer == Rgb([])
  }

  /** A Core Text font handle. */
  datatype Face = Face(handle: nat)

  /** A loaded font: its face and the fallback fonts Core Text suggested for it
      (the fallbacks themselves carry no further fallbacks). */
  datatype Font = Font(face: Face, fallbacks: seq<Font>)

  /** A glyph's bounding box after Core Graphics' floating-point rounding:
      left bearing, pixel width, and the pixel rows below and above the baseline. */
  datatype PixelBounds = PixelBounds(left: int, width: nat, descent: int, ascent: int)

  /** Everything the rasterizer asks of the platform font system. */
  datatype Platform = Platform(
    glyphIndex: (Face, char) -> UInt32,            // glyph index of a character, 0 if absent
    bounds: (Face, nat) -> PixelBounds,             // bounding box of a glyph index
    colored: Face -> bool,                          // the face has colour glyphs (emoji)
    render: (Face, nat) -> seq<UInt8>,              // pixels drawn for a glyph index
    openFont: (FontDesc, Size, real) -> Option<Font>,  // descriptor lookup at a size and pixel ratio
    scaledSize: (Size, real) -> Size)               // `Size::new(size.as_f32_pts() * ratio)`

  datatype Rasterizer = Rasterizer(
    fonts: map<FontKey, Font>,
    keys: map<(FontDesc, Size), FontKey>,
    devicePixelRatio: real,
    tokenCounter: nat)   // the process-wide counter behind `FontKey::next`

  /** Sizes add with `i16::saturating_add`, never overflowing. */
  function AddSize(a: Size, b: Size): (r: Size)
    ensures NearestInt16(r.halfPoints, a.halfPoints + b.halfPoints)
    ensures InInt16(a.halfPoints + b.halfPoints) ==> r.halfPoints == a.halfPoints + b.halfPoints
  {
    Size(SaturatingAdd(a.halfPoints, b.halfPoints))
  }

  /** `FontKey::next`: the counter's value, truncated to `u32`, becomes the
      token, and the counter moves on. */
  function NextFontKey(counter: nat): (r: (FontKey, nat))
    ensures r.1 == counter + 1
    ensures (counter - r.0.token) % TOKEN_SPACE == 0
    ensures counter < TOKEN_SPACE ==> r.0.token == counter
  {
    (FontKey(WrapUInt32(counter)), counter + 1)
  }

  /** Every key handed out so far was issued below the counter, and every
      memoised key names a loaded font. */
  ghost predicate Valid(r: Rasterizer) {
    && r.tokenCounter <= TOKEN_SPACE
    && (forall k :: k in r.fonts ==> k.token < r.tokenCounter)
    && (forall id :: id in r.keys ==> r.keys[id] in r.fonts)
  }

  /** `r'` keeps every font and memoised key of `r` and its pixel ratio. */
  ghost predicate Extends(r: Rasterizer, r': Rasterizer) {
    && r'.devicePixelRatio == r.devicePixelRatio
    && (forall k :: k in r.fonts ==> k in r'.fonts && r'.fonts[k] == r.fonts[k])
    && (forall id :: id in r.keys ==> id in r'.keys && r'.keys[id] == r.keys[id])
  }

  /** Extension is transitive. */
  lemma ExtendsTransitive(r1: Rasterizer, r2: Rasterizer, r3: Rasterizer)
    ensures Extends(r1, r2) && Extends(r2, r3) ==> Extends(r1, r3)
  {
  }

  /** The memoisation key of a font request: descriptor and scaled size. */
  function FontId(r: Rasterizer, pf: Platform, desc: FontDesc, size: Size): (FontDesc, Size) {
    (desc, pf.scaledSize(size, r.devicePixelRatio))
  }

  datatype FontLoad = FontLoad(rasterizer: Rasterizer, key: Result<FontKey>)

  /** `Rasterizer::load_font`: a request seen before (same descriptor, same
      scaled size) returns the memoised key and loads nothing; otherwise the
      font is opened and registered under a fresh key. */
  function LoadFont(r: Rasterizer, pf: Platform, desc: FontDesc, size: Size): (l: FontLoad)
    ensures FontId(r, pf, desc, size) in r.keys ==> l == FontLoad(r, Ok(r.keys[FontId(r, pf, desc, size)]))
    ensures l.key.Err? <==> FontId(r, pf, desc, size) !in r.keys && pf.openFont(desc, size, r.devicePixelRatio).None?
    ensures l.key.Err? ==> l.rasterizer == r && l.key.error == FontNotFound(desc)
    ensures l.key.Ok? ==>
      && FontId(r, pf, desc, size) in l.rasterizer.keys
      && l.rasterizer.keys[FontId(r, pf, desc, size)] == l.key.value
    ensures Valid(r) && r.tokenCounter < TOKEN_SPACE ==> Valid(l.rasterizer) && Extends(r, l.rasterizer)
    ensures l.rasterizer.tokenCounter <= r.tokenCounter + 1
    ensures Valid(r) && r.tokenCounter < TOKEN_SPACE && l.key.Ok? ==> l.key.value in l.rasterizer.fonts
    ensures Valid(r) && r.tokenCounter < TOKEN_SPACE && FontId(r, pf, desc, size) !in r.keys && l.key.Ok? ==>
      l.key.value !in r.fonts
    // A fresh key names the font the platform opened for the request, and
    // only that font and that memoisation entry are added.
    ensures FontId(r, pf, desc, size) !in r.keys && l.key.Ok? ==>
      && pf.openFont(desc, size, r.devicePixelRatio).Some?
      && l.key.value == NextFontKey(r.tokenCounter).0
      && l.rasterizer.fonts == r.fonts[l.key.value := pf.openFont(desc, size, r.devicePixelRatio).value]
      && l.rasterizer.keys == r.keys[FontId(r, pf, desc, size) := l.key.value]
      && l.rasterizer.tokenCounter == r.tokenCounter + 1
    // Memoised requests are never forgotten or changed, and the pixel ratio stays.
    ensures l.rasterizer.devicePixelRatio == r.devicePixelRatio
    ensures forall id :: id in r.keys ==> id in l.rasterizer.keys && l.rasterizer.keys[id] == r.keys[id]
    ensures forall id :: id in l.rasterizer.keys ==> id in r.keys || id == FontId(r, pf, desc, size)
  {
    var id := FontId(r, pf, desc, size);
    if id in r.keys then
      FontLoad(r, Ok(r.keys[id]))
    else
      match pf.openFont(desc, size, r.devicePixelRatio)
      case None => FontLoad(r, Err(FontNotFound(desc)))
      case Some(font) =>
        var (key, counter) := NextFontKey(r.tokenCounter);
        FontLoad(r.(fonts := r.fonts[key := font], keys := r.keys[id := key], tokenCounter := counter), Ok(key))
  }

  /** Loading the same font twice yields the same key, and the second load
      leaves the rasterizer exactly as it was. */
  lemma LoadFontMemoised(r: Rasterizer, pf: Platform, desc: FontDesc, size: Size)
    requires LoadFont(r, pf, desc, size).key.Ok?
    ensures var l := LoadFont(r, pf, desc, size);
      LoadFont(l.rasterizer, pf, desc, size) == FontLoad(l.rasterizer, l.key)
  {
    var l := LoadFont(r, pf, desc, size);
    assert FontId(l.rasterizer, pf, desc, size) == FontId(r, pf, desc, size);
  }

  /** Two fonts freshly loaded one after the other get distinct keys. */
  lemma FreshKeysDistinct(r: Rasterizer, pf: Platform, d1: FontDesc, s1: Size, d2: FontDesc, s2: Size)
    requires Valid(r) && r.tokenCounter + 1 < TOKEN_SPACE
    requires FontId(r, pf, d1, s1) !in r.keys
    requires LoadFont(r, pf, d1, s1).key.Ok?
    requires FontId(LoadFont(r, pf, d1, s1).rasterizer, pf, d2, s2) !in LoadFont(r, pf, d1, s1).rasterizer.keys
    requires LoadFont(LoadFont(r, pf, d1, s1).rasterizer, pf, d2, s2).key.Ok?
    ensures LoadFont(r, pf, d1, s1).key.value != LoadFont(LoadFont(r, pf, d1, s1).rasterizer, pf, d2, s2).key.value
  {
    var l1 := LoadFont(r, pf, d1, s1);
    assert l1.rasterizer.tokenCounter == r.tokenCounter + 1;
  }

  /** The font and its fallbacks, in the order they are searched. */
  function FontChain(font: Font): seq<Font> {
    [font] + font.fallbacks
  }

  /** Some font of `chain` maps `c` to a real glyph. */
  ghost predicate HasGlyph(pf: Platform, chain: seq<Font>, c: char) {
    exists i :: 0 <= i < |chain| && pf.glyphIndex(chain[i].face, c) != MISSING_GLYPH_INDEX
  }

  /** Position of the first font of `chain` that has `c`, or `|chain|` if none has. */
  function FirstWithGlyph(pf: Platform, chain: seq<Font>, c: char): (i: nat)
    ensures i <= |chain|
    ensures forall j :: 0 <= j < i ==> pf.glyphIndex(chain[j].face, c) == MISSING_GLYPH_INDEX
    ensures i < |chain| ==> pf.glyphIndex(chain[i].face, c) != MISSING_GLYPH_INDEX
    ensures i < |chain| <==> HasGlyph(pf, chain, c)
  {
    if |chain| == 0 then 0
    else if pf.glyphIndex(chain[0].face, c) != MISSING_GLYPH_INDEX then 0
    else
      var rest := FirstWithGlyph(pf, chain[1..], c);
      assert forall j :: 1 <= j < |chain| ==> chain[j] == chain[1..][j - 1];
      1 + rest
  }

  /** The bounding box encloses no pixel. */
  predicate ZeroBounds(b: PixelBounds) {
    b.width == 0 || b.descent + b.ascent == 0
  }

  /** `Font::get_glyph`: rasterize glyph `index` of `font` for character `c`.
      A glyph whose bounds enclose no pixel comes back as the blank glyph. */
  function FontGetGlyph(pf: Platform, font: Font, c: char, index: nat): (g: RasterizedGlyph)
    ensures ZeroBounds(pf.bounds(font.face, index)) <==> (g.width == 0 || g.height == 0)
    ensures ZeroBounds(pf.bounds(font.face, index)) ==> g.character == ' ' && IsEmptyGlyph(g)
    ensures !ZeroBounds(pf.bounds(font.face, index)) ==>
      var b := pf.bounds(font.face, index);
      && g.character == c
      && g.width == b.width && g.height == b.descent + b.ascent
      && g.top == b.ascent && g.left == b.left
      && g.advance == (0, 0)
      && (g.buffer.Rgba? <==> pf.colored(font.face))
      && g.buffer.bytes == pf.render(font.face, index)
  {
    var b := pf.bounds(font.face, index);
    var height := b.descent + b.ascent;
    if b.width == 0 || height == 0 then
      RasterizedGlyph(' ', 0, 0, 0, 0, (0, 0), Rgb([]))
    else
      var pixels := pf.render(font.face, index);
      var buffer := if pf.colored(font.face) then Rgba(pixels) else Rgb(pixels);
      RasterizedGlyph(c, b.width, height, b.ascent, b.left, (0, 0), buffer)
  }

  /** The zero-bounds branch of `Font::get_glyph` produces exactly the default glyph. */
  lemma ZeroBoundsIsDefault(pf: Platform, font: Font, c: char, index: nat)
    requires ZeroBounds(pf.bounds(font.face, index))
    ensures FontGetGlyph(pf, font, c, index) == DEFAULT_GLYPH
  {
  }

  /** `Rasterizer::get_glyph`: search the font and then its fallbacks, in
      order, for the first one that has the character; rasterize it there.
      If none has it, rasterize the missing glyph (index 0) of the primary
      font and report `MissingGlyph`. */
  function GetGlyph(r: Rasterizer, pf: Platform, key: GlyphKey): (g: Result<RasterizedGlyph>)
    ensures g == Err(UnknownFontKey) <==> key.fontKey !in r.fonts
    ensures key.fontKey in r.fonts ==>
      var font := r.fonts[key.fontKey];
      && (g.Ok? <==> HasGlyph(pf, FontChain(font), key.character))
      && (g.Err? ==> g.error == MissingGlyph(FontGetGlyph(pf, font, key.character, MISSING_GLYPH_INDEX)))
  {
    if key.fontKey !in r.fonts then
      Err(UnknownFontKey)
    else
      var font := r.fonts[key.fontKey];
      var chain := FontChain(font);
      var i := FirstWithGlyph(pf, chain, key.character);
      if i < |chain| then
        Ok(FontGetGlyph(pf, chain[i], key.character, pf.glyphIndex(chain[i].face, key.character)))
      else
        Err(MissingGlyph(FontGetGlyph(pf, font, key.character, MISSING_GLYPH_INDEX)))
  }

  /** The glyph comes from the first font of the chain that has the
      character, at the index that font reports. */
  lemma GetGlyphUsesFirstMatch(r: Rasterizer, pf: Platform, key: GlyphKey, j: nat)
    requires key.fontKey in r.fonts
    requires j < |FontChain(r.fonts[key.fontKey])|
    requires pf.glyphIndex(FontChain(r.fonts[key.fontKey])[j].face, key.character) != MISSING_GLYPH_INDEX
    requires forall i :: 0 <= i < j ==>
      pf.glyphIndex(FontChain(r.fonts[key.fontKey])[i].face, key.character) == MISSING_GLYPH_INDEX
    ensures var f := FontChain(r.fonts[key.fontKey])[j];
      GetGlyph(r, pf, key) == Ok(FontGetGlyph(pf, f, key.character, pf.glyphIndex(f.face, key.character)))
  {
  }

  /** A character the primary font has is always taken from the primary font. */
  lemma PrimaryFontWins(r: Rasterizer, pf: Platform, key: GlyphKey)
    requires key.fontKey in r.fonts
    requires pf.glyphIndex(r.fonts[key.fontKey].face, key.character) != MISSING_GLYPH_INDEX
    ensures var f := r.fonts[key.fontKey];
      GetGlyph(r, pf, key) == Ok(FontGetGlyph(pf, f, key.character, pf.glyphIndex(f.face, key.character)))
  {
    GetGlyphUsesFirstMatch(r, pf, key, 0);
  }
}

=== FILE: glyph_cache.dfy ===
/** The glyph cache of the text renderer: a memo table from glyph identity
    to the glyph as loaded into graphics memory. On a miss it asks the
    rasterizer for the bitmap, corrects its metrics and hands it to a loader
    (in the renderer, the texture atlas). Every missing-glyph placeholder of
    one font and size is cached once, under the character `'\0'`; any other
    rasterizer failure is cached as the blank default glyph, so a lookup
    never fails.

    The cache counts the calls it makes to the rasterizer and to the loader
    (`rasterCalls`, `loadCalls`); the counters are instrumentation that lets
    contracts say when no call is made. */
module GlyphCaching {
  import opened Ints
  import opened Crossfont
  import AtlasPacking

  /** `glyph_cache::Glyph`: a glyph as loaded into graphics memory. */
  datatype Glyph = Glyph(
    texId: AtlasPacking.TextureId,
    multicolor: bool,
    top: Int16,
    left: Int16,
    width: Int16,
    height: Int16,
    uvBot: real,
    uvLeft: real,
    uvWidth: real,
    uvHeight: real)

  /** `LoadGlyph`: copies a rasterized glyph into graphics memory, or clears
      everything loaded so far. `L` is the loader's state. */
  datatype Loader<!L> = Loader(load: (L, RasterizedGlyph) -> (L, Glyph), clear: L -> L)

  /** The font metrics the cache applies, already converted to whole pixels.
      `descent` is as the rasterizer reports it: the font's descent negated,
      so zero or below. */
  datatype Metrics = Metrics(averageAdvance: int, descent: int)

  datatype GlyphCache = GlyphCache(
    cache: map<GlyphKey, Glyph>,
    rasterizer: Rasterizer,
    fontKey: FontKey,
    boldKey: FontKey,
    italicKey: FontKey,
    boldItalicKey: FontKey,
    fontSize: Size,
    metrics: Metrics,
    rasterCalls: nat,
    loadCalls: nat)

  /** The cache and loader after a lookup, and the glyph it returned. */
  datatype Fetch<L> = Fetch(after: GlyphCache, loader: L, glyph: Glyph)

  /** The cache and loader after a batch of lookups. */
  datatype Preload<L> = Preload(after: GlyphCache, loader: L)

  /** `FontSize::new(16.)`: 16 points, i.e. 32 half points. */
  const DEFAULT_FONT_SIZE: Size := Size(32)

  /** The key under which the missing-glyph placeholder of `key`'s font and size is cached. */
  function MissingKey(key: GlyphKey): (m: GlyphKey)
    ensures m.character == '\0' && m.fontKey == key.fontKey && m.size == key.size
  {
    key.(character := '\0')
  }

  /** The rasterizer reports `key`'s character as present in no font. */
  predicate IsMissing(r: Rasterizer, pf: Platform, key: GlyphKey) {
    GetGlyph(r, pf, key).Err? && GetGlyph(r, pf, key).error.MissingGlyph?
  }

  /** `gc'` is `gc` with possibly more entries: same rasterizer, fonts,
      size and metrics, and every entry of `gc` kept with its glyph. */
  ghost predicate Grows(gc: GlyphCache, gc': GlyphCache) {
    && gc'.(cache := gc.cache, rasterCalls := gc.rasterCalls, loadCalls := gc.loadCalls) == gc
    && (forall k :: k in gc.cache ==> k in gc'.cache && gc'.cache[k] == gc.cache[k])
    && gc.rasterCalls <= gc'.rasterCalls
    && gc.loadCalls <= gc'.loadCalls
  }

  /** The metric corrections applied before loading: `top` loses the
      (non-positive) reported descent, so it grows by the font's descent, and,
      if the character has zero display width, the glyph moves right by one
      average advance so that it is drawn over the preceding cell. Nothing
      else about the glyph changes. */
  function Correct(m: Metrics, zeroWidth: char -> bool, g: RasterizedGlyph): (c: RasterizedGlyph)
    ensures c.top == g.top - m.descent
    ensures zeroWidth(g.character) ==> c.left == g.left + m.averageAdvance
    ensures !zeroWidth(g.character) ==> c.left == g.left
    ensures c.(top := g.top, left := g.left) == g
  {
    var shifted := g.(top := g.top - m.descent);
    if zeroWidth(g.character) then shifted.(left := g.left + m.averageAdvance) else shifted
  }

  /** `GlyphCache::load_glyph`: correct the glyph's metrics and load it. */
  function LoadGlyph<L>(gc: GlyphCache, ld: Loader<L>, st: L, g: RasterizedGlyph, zeroWidth: char -> bool): (r: (L, Glyph))
    // The loader is called once, on the glyph with the reported descent
    // subtracted from its top and, for a zero-width character only, moved
    // right by one average advance.
    ensures r == ld.load(st, g.(top := g.top - gc.metrics.descent,
                                left := if zeroWidth(g.character) then g.left + gc.metrics.averageAdvance else g.left))
  {
    ld.load(st, Correct(gc.metrics, zeroWidth, g))
  }

  /** `entry(key).or_insert(glyph)`: an existing entry wins. */
  function OrInsert<L>(gc: GlyphCache, key: GlyphKey, st: L, glyph: Glyph): (r: Fetch<L>)
    ensures key in r.after.cache && r.after.cache[key] == r.glyph
    ensures key in gc.cache ==> r == Fetch(gc, st, gc.cache[key])
    ensures key !in gc.cache ==> r == Fetch(gc.(cache := gc.cache[key := glyph]), st, glyph)
  {
    if key in gc.cache then Fetch(gc, st, gc.cache[key])
    else Fetch(gc.(cache := gc.cache[key := glyph]), st, glyph)
  }

  /** `GlyphCache::get`. */
  function Get<L>(gc: GlyphCache, key: GlyphKey, ld: Loader<L>, st: L, showMissing: bool,
                  pf: Platform, zeroWidth: char -> bool): (r: Fetch<L>)
    // A hit returns the stored glyph and calls neither rasterizer nor loader.
    ensures key in gc.cache ==> r == Fetch(gc, st, gc.cache[key])
    // Afterwards the key is cached with the returned glyph.
    ensures key in r.after.cache && r.after.cache[key] == r.glyph
    // Existing entries are never overwritten; at most `key` and its placeholder key are added.
    ensures Grows(gc, r.after)
    ensures forall k :: k in r.after.cache ==> k in gc.cache || k == key || k == MissingKey(key)
    // A miss rasterizes once and loads at most once.
    ensures key !in gc.cache ==> r.after.rasterCalls == gc.rasterCalls + 1
    ensures r.after.loadCalls <= gc.loadCalls + 1
    // A missing glyph shown as a placeholder shares the entry under '\0'.
    ensures key !in gc.cache && showMissing && IsMissing(gc.rasterizer, pf, key) ==>
      && MissingKey(key) in r.after.cache && r.after.cache[MissingKey(key)] == r.glyph
    // Only that path adds the '\0' entry, and only when the font has none yet;
    // every other miss adds exactly `key`.
    ensures key !in gc.cache && showMissing && IsMissing(gc.rasterizer, pf, key) ==>
      r.after.cache == (if MissingKey(key) in gc.cache then gc.cache else gc.cache[MissingKey(key) := r.glyph])[key := r.glyph]
    ensures key !in gc.cache && !(showMissing && IsMissing(gc.rasterizer, pf, key)) ==>
      r.after.cache == gc.cache[key := r.glyph]
  {
    if key in gc.cache then
      Fetch(gc, st, gc.cache[key])
    else
      var counted := gc.(rasterCalls := gc.rasterCalls + 1);
      var rasterized := GetGlyph(gc.rasterizer, pf, key);
      if rasterized.Ok? then
        var (st', glyph) := LoadGlyph(gc, ld, st, rasterized.value, zeroWidth);
        OrInsert(counted.(loadCalls := gc.loadCalls + 1), key, st', glyph)
      else if rasterized.error.MissingGlyph? && showMissing then
        var missingKey := MissingKey(key);
        if missingKey in gc.cache then
          OrInsert(counted, key, st, gc.cache[missingKey])
        else
          var (st', glyph) := LoadGlyph(gc, ld, st, rasterized.error.glyph, zeroWidth);
          var withMissing := counted.(cache := gc.cache[missingKey := glyph], loadCalls := gc.loadCalls + 1);
          OrInsert(withMissing, key, st', glyph)
      else
        var (st', glyph) := LoadGlyph(gc, ld, st, DEFAULT_GLYPH, zeroWidth);
        OrInsert(counted.(loadCalls := gc.loadCalls + 1), key, st', glyph)
  }

  /** What a miss loads: the corrected rasterized glyph; for a missing glyph
      shown as a placeholder, the font's existing placeholder without any
      load, or else the corrected placeholder bitmap; for any other failure,
      the corrected blank default glyph. */
  lemma GetMissOutcome<L>(gc: GlyphCache, key: GlyphKey, ld: Loader<L>, st: L, showMissing: bool,
                          pf: Platform, zeroWidth: char -> bool)
    requires key !in gc.cache
    ensures var r := Get(gc, key, ld, st, showMissing, pf, zeroWidth);
      var rasterized := GetGlyph(gc.rasterizer, pf, key);
      && (rasterized.Ok? ==>
          && (r.loader, r.glyph) == LoadGlyph(gc, ld, st, rasterized.value, zeroWidth)
          && r.after.loadCalls == gc.loadCalls + 1)
      && (showMissing && IsMissing(gc.rasterizer, pf, key) && MissingKey(key) in gc.cache ==>
          && r.glyph == gc.cache[MissingKey(key)]
          && r.loader == st && r.after.loadCalls == gc.loadCalls)
      && (showMissing && IsMissing(gc.rasterizer, pf, key) && MissingKey(key) !in gc.cache ==>
          && (r.loader, r.glyph) == LoadGlyph(gc, ld, st, rasterized.error.glyph, zeroWidth)
          && r.after.loadCalls == gc.loadCalls + 1)
      && (rasterized.Err? && !(showMissing && IsMissing(gc.rasterizer, pf, key)) ==>
          && (r.loader, r.glyph) == LoadGlyph(gc, ld, st, DEFAULT_GLYPH, zeroWidth)
          && r.after.loadCalls == gc.loadCalls + 1)
  {
  }

  /** Looking a key up again returns the identical glyph and calls neither
      the rasterizer nor the loader. */
  lemma GetTwice<L>(gc: GlyphCache, key: GlyphKey, ld: Loader<L>, st: L, m1: bool, m2: bool,
                    pf: Platform, zeroWidth: char -> bool)
    ensures var first := Get(gc, key, ld, st, m1, pf, zeroWidth);
      Get(first.after, key, ld, first.loader, m2, pf, zeroWidth) == Fetch(first.after, first.loader, first.glyph)
  {
  }

  /** Two different characters that no font of the same font and size has
      share one placeholder glyph: the loader runs only for the first, the
      placeholder is cached under `'\0'`, and the rasterizer still runs once
      per character. */
  lemma MissingGlyphShared<L>(gc: GlyphCache, k1: GlyphKey, k2: GlyphKey, ld: Loader<L>, st: L,
                              pf: Platform, zeroWidth: char -> bool)
    requires k1.fontKey == k2.fontKey && k1.size == k2.size
    requires k1.character != k2.character && k1.character != '\0' && k2.character != '\0'
    requires k1 !in gc.cache && k2 !in gc.cache && MissingKey(k1) !in gc.cache
    requires IsMissing(gc.rasterizer, pf, k1) && IsMissing(gc.rasterizer, pf, k2)
    ensures var r1 := Get(gc, k1, ld, st, true, pf, zeroWidth);
            var r2 := Get(r1.after, k2, ld, r1.loader, true, pf, zeroWidth);
      && r2.glyph == r1.glyph
      && r2.loader == r1.loader
      && r2.after.cache[MissingKey(k1)] == r1.glyph
      && r2.after.loadCalls == gc.loadCalls + 1
      && r2.after.rasterCalls == gc.rasterCalls + 2
  {
    var r1 := Get(gc, k1, ld, st, true, pf, zeroWidth);
    assert MissingKey(k2) == MissingKey(k1);
    assert r1.after.rasterizer == gc.rasterizer;
  }

  /** Every cached key the rasterizer reports missing holds the same glyph
      as its font's placeholder entry under `'\0'`. */
  ghost predicate MissingShared(gc: GlyphCache, pf: Platform) {
    forall k :: k in gc.cache && IsMissing(gc.rasterizer, pf, k) ==>
      MissingKey(k) in gc.cache && gc.cache[k] == gc.cache[MissingKey(k)]
  }

  /** Lookups that show missing glyphs keep the placeholder shared. */
  lemma GetKeepsMissingShared<L>(gc: GlyphCache, key: GlyphKey, ld: Loader<L>, st: L,
                                 pf: Platform, zeroWidth: char -> bool)
    ensures MissingShared(gc, pf) ==> MissingShared(Get(gc, key, ld, st, true, pf, zeroWidth).after, pf)
  {
    if !MissingShared(gc, pf) {
      return;
    }
    var r := Get(gc, key, ld, st, true, pf, zeroWidth);
    forall k | k in r.after.cache && IsMissing(r.after.rasterizer, pf, k)
      ensures MissingKey(k) in r.after.cache && r.after.cache[k] == r.after.cache[MissingKey(k)]
    {
      if k in gc.cache {
        assert MissingKey(k) in gc.cache;
      } else if k == key {
      } else {
        assert k == MissingKey(key) && MissingKey(k) == k;
      }
    }
  }

  /** Key of ASCII code `code` in `font` at `size`. */
  function AsciiKey(font: FontKey, size: Size, code: int): (k: GlyphKey)
    requires 32 <= code <= 126
    ensures k.fontKey == font && k.size == size && k.character as int == code
  {
    GlyphKey(code as char, font, size)
  }

  /** A key preloading `font` at `size` may create: a printable ASCII
      character or the placeholder `'\0'`. */
  predicate IsPreloadKey(k: GlyphKey, font: FontKey, size: Size) {
    k.fontKey == font && k.size == size && (k.character == '\0' || 32 <= k.character as int <= 126)
  }

  /** The keys of ASCII codes `code`..=126 of `font` at `size`, in ascending order. */
  function AsciiRun(font: FontKey, size: Size, code: int): (ks: seq<GlyphKey>)
    requires 32 <= code <= 127
    ensures |ks| == 127 - code
    ensures forall i :: 0 <= i < |ks| ==> ks[i] == AsciiKey(font, size, code + i)
  {
    seq(127 - code, i requires 0 <= i < 127 - code => AsciiKey(font, size, code + i))
  }

  /** `get` each of `keys` in turn, showing missing glyphs as the
      placeholder; one loader state is threaded through all the calls. */
  function GetAll<L>(gc: GlyphCache, keys: seq<GlyphKey>, ld: Loader<L>, st: L,
                     pf: Platform, zeroWidth: char -> bool): (r: Preload<L>)
    ensures Grows(gc, r.after)
    decreases |keys|
  {
    if |keys| == 0 then
      Preload(gc, st)
    else
      var f := Get(gc, keys[0], ld, st, true, pf, zeroWidth);
      GetAll(f.after, keys[1..], ld, f.loader, pf, zeroWidth)
  }

  /** Getting `k1 + k2` is getting `k1`, then `k2` from the cache and
      loader state that `k1` left behind. */
  lemma {:induction false} GetAllAppend<L>(gc: GlyphCache, k1: seq<GlyphKey>, k2: seq<GlyphKey>,
                                           ld: Loader<L>, st: L, pf: Platform, zeroWidth: char -> bool)
    ensures var p := GetAll(gc, k1, ld, st, pf, zeroWidth);
      GetAll(gc, k1 + k2, ld, st, pf, zeroWidth) == GetAll(p.after, k2, ld, p.loader, pf, zeroWidth)
    decreases |k1|
  {
    if |k1| == 0 {
      assert k1 + k2 == k2;
    } else {
      var f := Get(gc, k1[0], ld, st, true, pf, zeroWidth);
      assert (k1 + k2)[0] == k1[0];
      assert (k1 + k2)[1..] == k1[1..] + k2;
      assert GetAll(gc, k1, ld, st, pf, zeroWidth) == GetAll(f.after, k1[1..], ld, f.loader, pf, zeroWidth);
      assert GetAll(gc, k1 + k2, ld, st, pf, zeroWidth) == GetAll(f.after, k1[1..] + k2, ld, f.loader, pf, zeroWidth);
      GetAllAppend(f.after, k1[1..], k2, ld, f.loader, pf, zeroWidth);
    }
  }

  /** Look up ASCII codes `code`..=126 of `font`, showing missing glyphs as the placeholder. */
  function LoadAsciiFrom<L>(gc: GlyphCache, font: FontKey, code: int, ld: Loader<L>, st: L,
                            pf: Platform, zeroWidth: char -> bool): (r: Preload<L>)
    requires 32 <= code <= 127
    ensures Grows(gc, r.after)
    ensures forall c :: code <= c <= 126 ==> AsciiKey(font, gc.fontSize, c) in r.after.cache
    ensures AddsOnlyPreloadKeys(gc, r.after, {font})
    ensures MissingShared(gc, pf) ==> MissingShared(r.after, pf)
    decreases 127 - code
  {
    if code == 127 then
      Preload(gc, st)
    else
      var key := AsciiKey(font, gc.fontSize, code);
      var f := Get(gc, key, ld, st, true, pf, zeroWidth);
      GetKeepsMissingShared(gc, key, ld, st, pf, zeroWidth);
      var rest := LoadAsciiFrom(f.after, font, code + 1, ld, f.loader, pf, zeroWidth);
      AsciiStep(gc, f.after, rest.after, font, code);
      rest
  }

  /** One lookup that caches code `code` (and at most its placeholder),
      followed by a preload of the higher codes, preloads from `code`. */
  lemma AsciiStep(gc: GlyphCache, mid: GlyphCache, end: GlyphCache, font: FontKey, code: int)
    requires 32 <= code <= 126
    requires Grows(gc, mid) && Grows(mid, end)
    requires AsciiKey(font, gc.fontSize, code) in mid.cache
    requires forall k :: k in mid.cache ==>
      k in gc.cache || k == AsciiKey(font, gc.fontSize, code) || k == MissingKey(AsciiKey(font, gc.fontSize, code))
    requires forall c :: code + 1 <= c <= 126 ==> AsciiKey(font, mid.fontSize, c) in end.cache
    requires AddsOnlyPreloadKeys(mid, end, {font})
    ensures Grows(gc, end)
    ensures forall c :: code <= c <= 126 ==> AsciiKey(font, gc.fontSize, c) in end.cache
    ensures AddsOnlyPreloadKeys(gc, end, {font})
  {
    assert AsciiKey(font, gc.fontSize, code) in end.cache;
  }

  /** Preloading ASCII looks the codes up in ascending order, each `get`
      receiving the loader state the previous one returned. */
  lemma {:induction false} LoadAsciiFromFolds<L>(gc: GlyphCache, font: FontKey, code: int, ld: Loader<L>, st: L,
                                                 pf: Platform, zeroWidth: char -> bool)
    requires 32 <= code <= 127
    ensures LoadAsciiFrom(gc, font, code, ld, st, pf, zeroWidth)
         == GetAll(gc, AsciiRun(font, gc.fontSize, code), ld, st, pf, zeroWidth)
    decreases 127 - code
  {
    if code < 127 {
      var key := AsciiKey(font, gc.fontSize, code);
      var f := Get(gc, key, ld, st, true, pf, zeroWidth);
      LoadAsciiFromFolds(f.after, font, code + 1, ld, f.loader, pf, zeroWidth);
      var run := AsciiRun(font, gc.fontSize, code);
      assert run[0] == key && run[1..] == AsciiRun(font, f.after.fontSize, code + 1);
    }
  }

  /** `GlyphCache::load_glyphs_for_font`: cache every printable ASCII character of `font`. */
  function LoadGlyphsForFont<L>(gc: GlyphCache, font: FontKey, ld: Loader<L>, st: L,
                                pf: Platform, zeroWidth: char -> bool): (r: Preload<L>)
    ensures Grows(gc, r.after)
    ensures CoversAscii(r.after, font)
    ensures AddsOnlyPreloadKeys(gc, r.after, {font})
    ensures MissingShared(gc, pf) ==> MissingShared(r.after, pf)
  {
    LoadAsciiFrom(gc, font, 32, ld, st, pf, zeroWidth)
  }

  /** Every printable ASCII character of `font` is cached at the cache's size. */
  ghost predicate CoversAscii(gc: GlyphCache, font: FontKey) {
    forall c :: 32 <= c <= 126 ==> AsciiKey(font, gc.fontSize, c) in gc.cache
  }

  /** Every key of `gc'` was in `gc` or is a preload key of one of `fonts`. */
  ghost predicate AddsOnlyPreloadKeys(gc: GlyphCache, gc': GlyphCache, fonts: set<FontKey>) {
    forall k :: k in gc'.cache ==> k in gc.cache || (k.fontKey in fonts && IsPreloadKey(k, k.fontKey, gc.fontSize))
  }

  /** Adding preload keys twice adds preload keys of both font sets. */
  lemma AddsOnlyPreloadKeysChain(gc1: GlyphCache, gc2: GlyphCache, gc3: GlyphCache, f1: set<FontKey>, f2: set<FontKey>)
    requires AddsOnlyPreloadKeys(gc1, gc2, f1) && AddsOnlyPreloadKeys(gc2, gc3, f2)
    requires gc1.fontSize == gc2.fontSize
    ensures AddsOnlyPreloadKeys(gc1, gc3, f1 + f2)
  {
  }

  /** Growing the cache keeps the ASCII coverage of a font. */
  lemma GrowsKeepsCoverage(gc: GlyphCache, gc': GlyphCache, font: FontKey)
    requires Grows(gc, gc') && CoversAscii(gc, font)
    ensures CoversAscii(gc', font)
  {
    forall c | 32 <= c <= 126
      ensures AsciiKey(font, gc'.fontSize, c) in gc'.cache
    {
      assert AsciiKey(font, gc.fontSize, c) in gc.cache;
    }
  }

  /** The four style variants whose ASCII glyphs are preloaded. */
  function StyleKeySet(gc: GlyphCache): set<FontKey> {
    {gc.fontKey, gc.boldKey, gc.italicKey, gc.boldItalicKey}
  }

  /** The keys preloading looks up, in order: printable ASCII of regular,
      then bold, italic and bold italic, at the cache's size. */
  function CommonKeys(gc: GlyphCache): (ks: seq<GlyphKey>)
    ensures |ks| == 4 * 95
  {
    var size := gc.fontSize;
    AsciiRun(gc.fontKey, size, 32) + AsciiRun(gc.boldKey, size, 32)
      + AsciiRun(gc.italicKey, size, 32) + AsciiRun(gc.boldItalicKey, size, 32)
  }

  /** Lookup `i` of preloading is code `32 + i % 95` of style `i / 95`
      (regular, bold, italic, bold italic). */
  lemma CommonKeysInOrder(gc: GlyphCache, i: int)
    requires 0 <= i < 4 * 95
    ensures CommonKeys(gc)[i]
      == AsciiKey([gc.fontKey, gc.boldKey, gc.italicKey, gc.boldItalicKey][i / 95], gc.fontSize, 32 + i % 95)
  {
    var size := gc.fontSize;
    var a1, a2 := AsciiRun(gc.fontKey, size, 32), AsciiRun(gc.boldKey, size, 32);
    var a3, a4 := AsciiRun(gc.italicKey, size, 32), AsciiRun(gc.boldItalicKey, size, 32);
    if i < 95 {
      assert CommonKeys(gc)[i] == a1[i];
    } else if i < 190 {
      assert CommonKeys(gc)[i] == a2[i - 95];
    } else if i < 285 {
      assert CommonKeys(gc)[i] == a3[i - 190];
    } else {
      assert CommonKeys(gc)[i] == a4[i - 285];
    }
  }

  /** `GlyphCache::load_common_glyphs`: preload ASCII for regular, bold,
      italic and bold italic. */
  function LoadCommonGlyphs<L>(gc: GlyphCache, ld: Loader<L>, st: L,
                               pf: Platform, zeroWidth: char -> bool): (r: Preload<L>)
    ensures Grows(gc, r.after)
    ensures CoversAscii(r.after, gc.fontKey) && CoversAscii(r.after, gc.boldKey)
    ensures CoversAscii(r.after, gc.italicKey) && CoversAscii(r.after, gc.boldItalicKey)
    ensures AddsOnlyPreloadKeys(gc, r.after, StyleKeySet(gc))
    ensures MissingShared(gc, pf) ==> MissingShared(r.after, pf)
  {
    var p1 := LoadGlyphsForFont(gc, gc.fontKey, ld, st, pf, zeroWidth);
    var p2 := LoadGlyphsForFont(p1.after, gc.boldKey, ld, p1.loader, pf, zeroWidth);
    var p3 := LoadGlyphsForFont(p2.after, gc.italicKey, ld, p2.loader, pf, zeroWidth);
    var p4 := LoadGlyphsForFont(p3.after, gc.boldItalicKey, ld, p3.loader, pf, zeroWidth);
    GrowsKeepsCoverage(p1.after, p2.after, gc.fontKey);
    GrowsKeepsCoverage(p2.after, p3.after, gc.fontKey);
    GrowsKeepsCoverage(p3.after, p4.after, gc.fontKey);
    GrowsKeepsCoverage(p2.after, p3.after, gc.boldKey);
    GrowsKeepsCoverage(p3.after, p4.after, gc.boldKey);
    GrowsKeepsCoverage(p3.after, p4.after, gc.italicKey);
    AddsOnlyPreloadKeysChain(gc, p1.after, p2.after, {gc.fontKey}, {gc.boldKey});
    AddsOnlyPreloadKeysChain(gc, p2.after, p3.after, {gc.fontKey, gc.boldKey}, {gc.italicKey});
    AddsOnlyPreloadKeysChain(gc, p3.after, p4.after, {gc.fontKey, gc.boldKey, gc.italicKey}, {gc.boldItalicKey});
    p4
  }

  /** `load_common_glyphs` threads one loader state through all 4 * 95
      lookups of `CommonKeys`, in order. */
  lemma LoadCommonGlyphsFolds<L>(gc: GlyphCache, ld: Loader<L>, st: L, pf: Platform, zeroWidth: char -> bool)
    ensures LoadCommonGlyphs(gc, ld, st, pf, zeroWidth) == GetAll(gc, CommonKeys(gc), ld, st, pf, zeroWidth)
  {
    var p1 := LoadGlyphsForFont(gc, gc.fontKey, ld, st, pf, zeroWidth);
    var p2 := LoadGlyphsForFont(p1.after, gc.boldKey, ld, p1.loader, pf, zeroWidth);
    var p3 := LoadGlyphsForFont(p2.after, gc.italicKey, ld, p2.loader, pf, zeroWidth);
    LoadAsciiFromFolds(gc, gc.fontKey, 32, ld, st, pf, zeroWidth);
    LoadAsciiFromFolds(p1.after, gc.boldKey, 32, ld, p1.loader, pf, zeroWidth);
    LoadAsciiFromFolds(p2.after, gc.italicKey, 32, ld, p2.loader, pf, zeroWidth);
    LoadAsciiFromFolds(p3.after, gc.boldItalicKey, 32, ld, p3.loader, pf, zeroWidth);
    CommonKeysFold(gc, ld, st, pf, zeroWidth);
  }

  /** Preloading the four styles one after another is one fold over `CommonKeys`. */
  lemma CommonKeysFold<L>(gc: GlyphCache, ld: Loader<L>, st: L, pf: Platform, zeroWidth: char -> bool)
    ensures var size := gc.fontSize;
      var p1 := GetAll(gc, AsciiRun(gc.fontKey, size, 32), ld, st, pf, zeroWidth);
      var p2 := GetAll(p1.after, AsciiRun(gc.boldKey, size, 32), ld, p1.loader, pf, zeroWidth);
      var p3 := GetAll(p2.after, AsciiRun(gc.italicKey, size, 32), ld, p2.loader, pf, zeroWidth);
      GetAll(p3.after, AsciiRun(gc.boldItalicKey, size, 32), ld, p3.loader, pf, zeroWidth)
        == GetAll(gc, CommonKeys(gc), ld, st, pf, zeroWidth)
  {
    var size := gc.fontSize;
    var a1, a2 := AsciiRun(gc.fontKey, size, 32), AsciiRun(gc.boldKey, size, 32);
    var a3, a4 := AsciiRun(gc.italicKey, size, 32), AsciiRun(gc.boldItalicKey, size, 32);
    GetAllAppend(gc, a1, a2, ld, st, pf, zeroWidth);
    GetAllAppend(gc, a1 + a2, a3, ld, st, pf, zeroWidth);
    GetAllAppend(gc, a1 + a2 + a3, a4, ld, st, pf, zeroWidth);
  }

  /** `GlyphCache::reset_glyph_cache`: clear the loader, drop every entry
      and preload ASCII again. Afterwards the cache holds only preload keys
      of the four styles, covers all their printable ASCII, and every
      unmappable character among them shares its font's placeholder. */
  function ResetGlyphCache<L>(gc: GlyphCache, ld: Loader<L>, st: L,
                              pf: Platform, zeroWidth: char -> bool): (r: Preload<L>)
    ensures r.after.rasterizer == gc.rasterizer && r.after.fontSize == gc.fontSize
    ensures CoversAscii(r.after, gc.fontKey) && CoversAscii(r.after, gc.boldKey)
    ensures CoversAscii(r.after, gc.italicKey) && CoversAscii(r.after, gc.boldItalicKey)
    ensures forall k :: k in r.after.cache ==>
      k.fontKey in StyleKeySet(gc) && IsPreloadKey(k, k.fontKey, gc.fontSize)
    ensures MissingShared(r.after, pf)
  {
    LoadCommonGlyphs(gc.(cache := map[]), ld, ld.clear(st), pf, zeroWidth)
  }

  /** A reset clears the loader once, before the first lookup, and threads
      the cleared state through every lookup of `CommonKeys` into the empty map. */
  lemma ResetFolds<L>(gc: GlyphCache, ld: Loader<L>, st: L, pf: Platform, zeroWidth: char -> bool)
    ensures ResetGlyphCache(gc, ld, st, pf, zeroWidth)
         == GetAll(gc.(cache := map[]), CommonKeys(gc), ld, ld.clear(st), pf, zeroWidth)
  {
    LoadCommonGlyphsFolds(gc.(cache := map[]), ld, ld.clear(st), pf, zeroWidth);
  }

  /** A reset forgets the cache: its outcome depends neither on the entries
      cached before nor on the loader's state before `clear`. */
  lemma ResetForgetsOldState<L>(gc: GlyphCache, m: map<GlyphKey, Glyph>, ld: Loader<L>, st1: L, st2: L,
                                pf: Platform, zeroWidth: char -> bool)
    requires ld.clear(st1) == ld.clear(st2)
    ensures ResetGlyphCache(gc.(cache := m), ld, st1, pf, zeroWidth) == ResetGlyphCache(gc, ld, st2, pf, zeroWidth)
  {
    assert gc.(cache := m).(cache := map[]) == gc.(cache := map[]);
  }

  /** After a reset, each preloaded ASCII character that no font has holds
      its font's shared placeholder glyph. */
  lemma ResetSharesPlaceholder<L>(gc: GlyphCache, ld: Loader<L>, st: L, pf: Platform,
                                  zeroWidth: char -> bool, font: FontKey, code: int)
    requires font in StyleKeySet(gc) && 32 <= code <= 126
    requires IsMissing(gc.rasterizer, pf, AsciiKey(font, gc.fontSize, code))
    ensures var after := ResetGlyphCache(gc, ld, st, pf, zeroWidth).after;
      var placeholder := GlyphKey('\0', font, gc.fontSize);
      && AsciiKey(font, gc.fontSize, code) in after.cache
      && placeholder in after.cache
      && after.cache[AsciiKey(font, gc.fontSize, code)] == after.cache[placeholder]
  {
    var after := ResetGlyphCache(gc, ld, st, pf, zeroWidth).after;
    CoversStyle(gc, after, font);
    var key := AsciiKey(font, gc.fontSize, code);
    assert key in after.cache;
    PlaceholderShared(after, pf, key);
  }

  /** A cache covering the ASCII of all four styles covers each style in the set. */
  lemma CoversStyle(gc: GlyphCache, gc': GlyphCache, font: FontKey)
    requires font in StyleKeySet(gc)
    requires CoversAscii(gc', gc.fontKey) && CoversAscii(gc', gc.boldKey)
    requires CoversAscii(gc', gc.italicKey) && CoversAscii(gc', gc.boldItalicKey)
    ensures CoversAscii(gc', font)
  {
  }

  /** In a cache where placeholders are shared, a cached missing key holds its placeholder's glyph. */
  lemma PlaceholderShared(gc: GlyphCache, pf: Platform, key: GlyphKey)
    requires MissingShared(gc, pf) && key in gc.cache && IsMissing(gc.rasterizer, pf, key)
    ensures MissingKey(key) in gc.cache && gc.cache[key] == gc.cache[MissingKey(key)]
  {
  }

  /** The font style keys (regular, bold, italic, bold italic). */
  datatype StyleKeys = StyleKeys(regular: FontKey, bold: FontKey, italic: FontKey, boldItalic: FontKey)

  datatype KeysLoad = KeysLoad(rasterizer: Rasterizer, keys: Result<StyleKeys>)

  function SourceCodePro(style: string): FontDesc {
    FontDesc("Source Code Pro", Specific(style))
  }

  /** `r'` keeps every memoised request of `r`, with the same key, and its pixel ratio. */
  ghost predicate KeysGrow(r: Rasterizer, r': Rasterizer) {
    && r'.devicePixelRatio == r.devicePixelRatio
    && (forall id :: id in r.keys ==> id in r'.keys && r'.keys[id] == r.keys[id])
  }

  lemma KeysGrowTransitive(r1: Rasterizer, r2: Rasterizer, r3: Rasterizer)
    requires KeysGrow(r1, r2) && KeysGrow(r2, r3)
    ensures KeysGrow(r1, r3)
  {
  }

  /** `GlyphCache::load_regular_font`: load `desc`, retrying with Source
      Code Pro Regular on failure. */
  function LoadRegularFont(r: Rasterizer, pf: Platform, desc: FontDesc, size: Size): (l: FontLoad)
    ensures LoadFont(r, pf, desc, size).key.Ok? ==> l == LoadFont(r, pf, desc, size)
    ensures LoadFont(r, pf, desc, size).key.Err? ==> l == LoadFont(r, pf, SourceCodePro("Regular"), size)
    ensures Valid(r) && r.tokenCounter < TOKEN_SPACE ==>
      Valid(l.rasterizer) && Extends(r, l.rasterizer) && l.rasterizer.tokenCounter <= r.tokenCounter + 1
    ensures Valid(r) && r.tokenCounter < TOKEN_SPACE && l.key.Ok? ==> l.key.value in l.rasterizer.fonts
    // The key returned is the one memoised for the request or for the retry,
    // and only those two requests can be newly memoised.
    ensures l.key.Ok? ==>
      || (FontId(r, pf, desc, size) in l.rasterizer.keys && l.rasterizer.keys[FontId(r, pf, desc, size)] == l.key.value)
      || (FontId(r, pf, SourceCodePro("Regular"), size) in l.rasterizer.keys
          && l.rasterizer.keys[FontId(r, pf, SourceCodePro("Regular"), size)] == l.key.value)
    ensures KeysGrow(r, l.rasterizer)
    ensures forall id :: id in l.rasterizer.keys ==>
      id in r.keys || id == FontId(r, pf, desc, size) || id == FontId(r, pf, SourceCodePro("Regular"), size)
  {
    var first := LoadFont(r, pf, desc, size);
    if first.key.Ok? then first
    else LoadFont(first.rasterizer, pf, SourceCodePro("Regular"), size)
  }

  /** The `load_or_regular` closure: the regular key for the regular
      descriptor, otherwise the loaded font or, failing that, the regular key. */
  function LoadOrRegular(r: Rasterizer, pf: Platform, desc: FontDesc, regularDesc: FontDesc,
                         regular: FontKey, size: Size): (rk: (Rasterizer, FontKey))
    ensures Valid(r) && r.tokenCounter < TOKEN_SPACE && regular in r.fonts ==>
      Valid(rk.0) && Extends(r, rk.0) && rk.0.tokenCounter <= r.tokenCounter + 1 && rk.1 in rk.0.fonts
    // The regular descriptor loads nothing.
    ensures desc == regularDesc ==> rk == (r, regular)
    // A request seen before returns its memoised key and loads nothing.
    ensures desc != regularDesc && FontId(r, pf, desc, size) in r.keys ==>
      rk == (r, r.keys[FontId(r, pf, desc, size)])
    // A new request that the platform can open registers that font under a fresh key.
    ensures desc != regularDesc && FontId(r, pf, desc, size) !in r.keys && pf.openFont(desc, size, r.devicePixelRatio).Some? ==>
      && rk.1 == NextFontKey(r.tokenCounter).0
      && rk.0.fonts == r.fonts[rk.1 := pf.openFont(desc, size, r.devicePixelRatio).value]
      && rk.0.keys == r.keys[FontId(r, pf, desc, size) := rk.1]
    // A new request the platform cannot open falls back to the regular key and changes nothing.
    ensures desc != regularDesc && FontId(r, pf, desc, size) !in r.keys && pf.openFont(desc, size, r.devicePixelRatio).None? ==>
      rk == (r, regular)
    ensures KeysGrow(r, rk.0)
    ensures forall id :: id in rk.0.keys ==> id in r.keys || id == FontId(r, pf, desc, size)
  {
    if desc == regularDesc then (r, regular)
    else
      var l := LoadFont(r, pf, desc, size);
      (l.rasterizer, if l.key.Ok? then l.key.value else regular)
  }

  /** After the style fonts are loaded into `r` (starting from `r0`), `key`
      is the key memoised for Source Code Pro `style` at 16 points, or
      `regular` when that font was neither memoised nor openable. */
  ghost predicate StyleResolved(r0: Rasterizer, r: Rasterizer, pf: Platform, style: string,
                                key: FontKey, regular: FontKey) {
    var desc := SourceCodePro(style);
    var id := FontId(r0, pf, desc, DEFAULT_FONT_SIZE);
    && (id in r.keys <==> id in r0.keys || pf.openFont(desc, DEFAULT_FONT_SIZE, r0.devicePixelRatio).Some?)
    && key == (if id in r.keys then r.keys[id] else regular)
  }

  /** Loading a style font that is not the regular one resolves its key. */
  lemma LoadOrRegularResolves(r0: Rasterizer, r: Rasterizer, pf: Platform, style: string, regular: FontKey)
    requires SourceCodePro(style) != SourceCodePro("Regular")
    requires r.devicePixelRatio == r0.devicePixelRatio
    requires FontId(r0, pf, SourceCodePro(style), DEFAULT_FONT_SIZE) in r.keys <==>
             FontId(r0, pf, SourceCodePro(style), DEFAULT_FONT_SIZE) in r0.keys
    ensures var rk := LoadOrRegular(r, pf, SourceCodePro(style), SourceCodePro("Regular"), regular, DEFAULT_FONT_SIZE);
      StyleResolved(r0, rk.0, pf, style, rk.1, regular)
  {
    assert FontId(r, pf, SourceCodePro(style), DEFAULT_FONT_SIZE) == FontId(r0, pf, SourceCodePro(style), DEFAULT_FONT_SIZE);
  }

  /** A resolved style key stays resolved while other requests are memoised. */
  lemma StyleResolvedKept(r0: Rasterizer, r1: Rasterizer, r2: Rasterizer, pf: Platform, style: string,
                          key: FontKey, regular: FontKey, other: (FontDesc, Size))
    requires StyleResolved(r0, r1, pf, style, key, regular)
    requires KeysGrow(r1, r2)
    requires forall id :: id in r2.keys ==> id in r1.keys || id == other
    requires other != FontId(r0, pf, SourceCodePro(style), DEFAULT_FONT_SIZE)
    ensures StyleResolved(r0, r2, pf, style, key, regular)
  {
  }

  /** Loading bold, italic and bold italic in turn after the regular font
      resolves each of their keys. `l` is the rasterizer after the regular
      load, which memoised nothing but the regular request. */
  lemma StyleKeysResolved(r: Rasterizer, l: Rasterizer, pf: Platform, regular: FontKey)
    requires KeysGrow(r, l)
    requires forall id :: id in l.keys ==> id in r.keys || id == FontId(r, pf, SourceCodePro("Regular"), DEFAULT_FONT_SIZE)
    ensures var regularDesc := SourceCodePro("Regular");
      var (r1, bold) := LoadOrRegular(l, pf, SourceCodePro("Bold"), regularDesc, regular, DEFAULT_FONT_SIZE);
      var (r2, italic) := LoadOrRegular(r1, pf, SourceCodePro("Italic"), regularDesc, regular, DEFAULT_FONT_SIZE);
      var (r3, boldItalic) := LoadOrRegular(r2, pf, SourceCodePro("Bold Italic"), regularDesc, regular, DEFAULT_FONT_SIZE);
      && StyleResolved(r, r3, pf, "Bold", bold, regular)
      && StyleResolved(r, r3, pf, "Italic", italic, regular)
      && StyleResolved(r, r3, pf, "Bold Italic", boldItalic, regular)
  {
    var regularDesc := SourceCodePro("Regular");
    var regularId := FontId(r, pf, regularDesc, DEFAULT_FONT_SIZE);
    var boldId := FontId(r, pf, SourceCodePro("Bold"), DEFAULT_FONT_SIZE);
    var italicId := FontId(r, pf, SourceCodePro("Italic"), DEFAULT_FONT_SIZE);
    var boldItalicId := FontId(r, pf, SourceCodePro("Bold Italic"), DEFAULT_FONT_SIZE);
    assert "Bold" != "Regular" && "Italic" != "Regular" && "Bold Italic" != "Regular";
    assert "Italic" != "Bold" && "Bold Italic" != "Bold" && "Bold Italic" != "Italic";
    assert boldId != regularId && italicId != regularId && boldItalicId != regularId;
    assert italicId != boldId && boldItalicId != boldId && boldItalicId != italicId;
    var (r1, bold) := LoadOrRegular(l, pf, SourceCodePro("Bold"), regularDesc, regular, DEFAULT_FONT_SIZE);
    LoadOrRegularResolves(r, l, pf, "Bold", regular);
    assert FontId(l, pf, SourceCodePro("Bold"), DEFAULT_FONT_SIZE) == boldId;
    var (r2, italic) := LoadOrRegular(r1, pf, SourceCodePro("Italic"), regularDesc, regular, DEFAULT_FONT_SIZE);
    LoadOrRegularResolves(r, r1, pf, "Italic", regular);
    assert FontId(r1, pf, SourceCodePro("Italic"), DEFAULT_FONT_SIZE) == italicId;
    StyleResolvedKept(r, r1, r2, pf, "Bold", bold, regular, italicId);
    var (r3, boldItalic) := LoadOrRegular(r2, pf, SourceCodePro("Bold Italic"), regularDesc, regular, DEFAULT_FONT_SIZE);
    LoadOrRegularResolves(r, r2, pf, "Bold Italic", regular);
    assert FontId(r2, pf, SourceCodePro("Bold Italic"), DEFAULT_FONT_SIZE) == boldItalicId;
    StyleResolvedKept(r, r2, r3, pf, "Bold", bold, regular, boldItalicId);
    StyleResolvedKept(r, r2, r3, pf, "Italic", italic, regular, boldItalicId);
  }

  /** `GlyphCache::compute_font_keys`: load Source Code Pro in its four
      styles at 16 points; a style that fails to load falls back to the
      regular font, and only a failure of the regular font is an error. */
  function ComputeFontKeys(r: Rasterizer, pf: Platform): (c: KeysLoad)
    ensures c.keys.Err? <==> LoadRegularFont(r, pf, SourceCodePro("Regular"), DEFAULT_FONT_SIZE).key.Err?
    ensures Valid(r) && r.tokenCounter + 4 < TOKEN_SPACE ==> Valid(c.rasterizer) && Extends(r, c.rasterizer)
    ensures Valid(r) && r.tokenCounter + 4 < TOKEN_SPACE && c.keys.Ok? ==>
      var ks := c.keys.value;
      ks.regular in c.rasterizer.fonts && ks.bold in c.rasterizer.fonts
      && ks.italic in c.rasterizer.fonts && ks.boldItalic in c.rasterizer.fonts
    // The regular key is the one memoised for Source Code Pro Regular; each
    // other style key is the one memoised for that style, or the regular
    // key when that font could not be opened.
    ensures c.keys.Ok? ==>
      var ks := c.keys.value;
      var regularId := FontId(r, pf, SourceCodePro("Regular"), DEFAULT_FONT_SIZE);
      && regularId in c.rasterizer.keys && c.rasterizer.keys[regularId] == ks.regular
      && StyleResolved(r, c.rasterizer, pf, "Bold", ks.bold, ks.regular)
      && StyleResolved(r, c.rasterizer, pf, "Italic", ks.italic, ks.regular)
      && StyleResolved(r, c.rasterizer, pf, "Bold Italic", ks.boldItalic, ks.regular)
    ensures KeysGrow(r, c.rasterizer)
  {
    var regularDesc := SourceCodePro("Regular");
    var l := LoadRegularFont(r, pf, regularDesc, DEFAULT_FONT_SIZE);
    if l.key.Err? then
      KeysLoad(l.rasterizer, Err(l.key.error))
    else
      var regular := l.key.value;
      var (r1, bold) := LoadOrRegular(l.rasterizer, pf, SourceCodePro("Bold"), regularDesc, regular, DEFAULT_FONT_SIZE);
      var (r2, italic) := LoadOrRegular(r1, pf, SourceCodePro("Italic"), regularDesc, regular, DEFAULT_FONT_SIZE);
      var (r3, boldItalic) := LoadOrRegular(r2, pf, SourceCodePro("Bold Italic"), regularDesc, regular, DEFAULT_FONT_SIZE);
      ExtendsTransitive(r, l.rasterizer, r1);
      ExtendsTransitive(r, r1, r2);
      ExtendsTransitive(r, r2, r3);
      ExtendsTransitive(l.rasterizer, r1, r2);
      ExtendsTransitive(l.rasterizer, r2, r3);
      ExtendsTransitive(r1, r2, r3);
      KeysGrowTransitive(r, l.rasterizer, r1);
      KeysGrowTransitive(r, r1, r2);
      KeysGrowTransitive(r, r2, r3);
      StyleKeysResolved(r, l.rasterizer, pf, regular);
      KeysLoad(r3, Ok(StyleKeys(regular, bold, italic, boldItalic)))
  }

  /** The retry in `load_regular_font` uses the very descriptor the renderer
      asks for first, so for that descriptor it can never succeed where the
      first attempt failed. */
  lemma RegularRetryRedundant(r: Rasterizer, pf: Platform, size: Size)
    ensures LoadRegularFont(r, pf, SourceCodePro("Regular"), size) == LoadFont(r, pf, SourceCodePro("Regular"), size)
  {
  }
}

=== FILE: ints.dfy ===
/** Fixed-width integer ranges and the conversions the renderer performs
    between them (Rust `as` casts and `saturating_add`). */
module Ints {

  const I16_MIN: int := -0x8000
  const I16_MAX: int := 0x7FFF

  type Int16 = x: int | I16_MIN <= x <= I16_MAX
  type UInt8 = x: int | 0 <= x < 0x100
  type UInt16 = x: int | 0 <= x < 0x1_0000
  type UInt32 = x: int | 0 <= x < 0x1_0000_0000

  predicate InInt16(x: int) {
    I16_MIN <= x <= I16_MAX
  }

  /** Distance between two integers. */
  function Distance(x: int, y: int): nat {
    if x <= y then y - x else x - y
  }

  /** Rust's `x as i16`: keep the low 16 bits, read as two's complement. */
  function WrapInt16(x: int): (r: Int16)
    ensures (r - x) % 0x1_0000 == 0
    ensures InInt16(x) ==> r == x
  {
    (x + 0x8000) % 0x1_0000 - 0x8000
  }

  /** Rust's `x as u16` on an unsigned value: keep the low 16 bits. */
  function WrapUInt16(x: nat): (r: UInt16)
    ensures (x - r) % 0x1_0000 == 0
    ensures x < 0x1_0000 ==> r == x
  {
    x % 0x1_0000
  }

  /** Rust's `x as u32` on an unsigned value: keep the low 32 bits. */
  function WrapUInt32(x: nat): (r: UInt32)
    ensures (x - r) % 0x1_0000_0000 == 0
    ensures x < 0x1_0000_0000 ==> r == x
  {
    x % 0x1_0000_0000
  }

  /** No 16-bit value lies closer to `x` than `r` does. */
  ghost predicate NearestInt16(r: Int16, x: int) {
    forall y: Int16 :: Distance(r, x) <= Distance(y, x)
  }

  /** `i16::saturating_add`: the representable value nearest the exact sum. */
  function SaturatingAdd(a: Int16, b: Int16): (r: Int16)
    ensures NearestInt16(r, a + b)
    ensures InInt16(a + b) ==> r == a + b
  {
    if a + b > I16_MAX then I16_MAX
    else if a + b < I16_MIN then I16_MIN
    else a + b
  }
}
